=== FILE: README.md ===
# Gift registry reservations — a Dafny model

This project models the reservation core of a housewarming gift registry ("Chá de Casa Nova"). Guests put gifts in a
personal cart, which is a soft hold stored in the shared `gifts` table. They then confirm the whole cart
in one batch. A later batch never takes a confirmed gift from its owner, but the cart write does not
look at the confirmation, so a guest whose list is out of date can still overwrite it. Hosts can mark
a gift as one they already own, and anyone can add a new gift unless its name matches an existing one
after trimming and lower-casing. Every client keeps a local list of gifts. It updates that list
optimistically and then follows the table's change feed (INSERT / UPDATE / DELETE).

The model has nine modules:

- `Wrappers` holds `Option` and `Result`. `Js` holds the JavaScript truthiness of `string | null`
  (`Truthy`: present and non-empty) and of `boolean | null` (`IsTrue`: exactly `true`).
- `Seqs` holds an order-preserving `Filter` (the model of `Array.filter`) and `IsSubsequence`, with lemmas
  on what a filter keeps, including the multiplicity of every element.
- `Text` holds `trim` (ECMAScript white space and line terminators), ASCII lower-casing, and the
  normalisation used by the duplicate-name check.
- `Store` models `src/lib/supabase.ts`. The table is a `map<int, Row>`, and a row keeps the
  nullable columns as `Option`s. `confirmGifts` is modelled with two table states. The conflict check
  reads the first one. The conditional write `.in('id', ids).is('is_confirmed', false)` applies to the
  second one, which may differ from the first because another client wrote in between.
- `Gifts` models the client's `GiftItem`, `convertGiftRow`, and the change-feed reducer in
  `src/App.tsx`.
- `Handlers` models the handlers of `src/App.tsx`. A handler returns the new local list, the
  notice shown to the user, and the store call it issues. The call's success is a boolean parameter.
  The list filter and the counters are here too.
- `GiftCard`, `ConfirmDialog` and `GiftList` model the decisions made by the gift card, the
  confirmation dialog and the list page.

## Model

| member | source | states |
|---|---|---|
| Js.OrNull | src/lib/supabase.ts:55 | `category \|\| null` keeps a category exactly when it is a non-empty string and turns every other value into null |
| Store.ApplyPatch | src/App.tsx:143-147 | a cart write never touches the confirmation or owned columns, the owned mark never touches a reservation column, a release clears the whole reservation but keeps the owned mark, and none of them changes id, name, category or priority |
| Store.OwnedCommutesWithReservation | src/App.tsx:98-100 | a host's owned mark and a guest's cart or release write on the same row give the same stored row in either order, so neither loses the other's columns |
| Store.PatchIdempotent | src/lib/supabase.ts:72-78 | sending the same partial update twice stores the same row as sending it once |
| Store.LaterCartWriteWins | src/App.tsx:143-147 | of two cart writes to a row, the later one alone decides its reservation columns |
| Store.UpdateGift | src/lib/supabase.ts:72-85 | the update succeeds iff the store is reachable and the id exists; on success only that row changes, it becomes the patched row, and the key set is kept |
| Store.WritesKeepAttribution | src/lib/supabase.ts:106-117 | the batch write by a named guest, a release and an owned mark never leave a confirmed row without an owner |
| Store.AddGift | src/lib/supabase.ts:49-69 | a new gift row is created under a fresh key with priority "desirable", unreserved, unconfirmed, with no holder, no timestamps and no owned mark, and no earlier row is touched; it fails only when the store is unreachable |
| Store.Conflicts | src/lib/supabase.ts:100 | a requested row is a conflict iff it is confirmed and held by a non-empty name other than the requester's; the map holds exactly those rows, unchanged |
| Store.ConditionalConfirm | src/lib/supabase.ts:107-117 | the batch write confirms for the guest exactly the requested rows whose `is_confirmed` is `false`; every other row, including rows whose flag is null, keeps its value |
| Store.ConfirmGifts | src/lib/supabase.ts:88-125 | a read error aborts with nothing written; any conflict returns `success: false` with the conflicts and writes nothing; a write error leaves the table as it was; a clean read with a working write returns `success: true` with no conflicts and applies the conditional write; `success` holds iff no conflicts were returned; on success only the conditional write applies; rows outside the request and rows not explicitly unconfirmed never change |
| Store.CartHoldOfOtherIsTakenOver | src/lib/supabase.ts:100-117 | a requested row that is only in another guest's cart is not a conflict, and the batch writes the requesting guest over that hold |
| Store.ZeroMatchStillSucceeds | src/lib/supabase.ts:107-124 | when none of the requested rows is still unconfirmed, the call reports success with no conflicts and the table is unchanged |
| Store.ConfirmedOwnerIsFinal | src/lib/supabase.ts:107-117 | once a row is confirmed, no sequence of later confirmation batches, whoever sends them, changes that row |
| Store.FirstConfirmationWins | src/lib/supabase.ts:88-124 | after one guest's successful batch confirms a row, a second guest's batch that includes the row leaves it confirmed for the first guest |
| Gifts.ConvertGiftRow | src/App.tsx:31-38 | the client shows a gift as chosen iff the row is confirmed and has a holder, and as in a cart iff it is reserved, not confirmed and has a holder; never both; owned iff the column is true |
| Gifts.FindIndex | src/App.tsx:113 | `gifts.find` by id picks the first entry with that id, and finds none exactly when no entry has it |
| Gifts.UpdateWhere | src/App.tsx:138-140 | `gifts.map` with an id test rewrites every entry with that id and leaves all others in place |
| Gifts.ApplyEvent | src/App.tsx:48-56 | INSERT appends the converted row after the unchanged list; UPDATE keeps the length and replaces every entry with the row's id by the converted row, in place; DELETE keeps, in order, exactly the entries with another id |
| Gifts.InsertNotIdempotent | src/App.tsx:48-49 | replaying the same INSERT event lengthens the list again, so a redelivered event shows a duplicate entry |
| Gifts.InsertCanDuplicateIds | src/App.tsx:48-49 | an INSERT for an id that is already listed breaks the uniqueness of ids in the local list |
| Gifts.UpdateOfUnlistedIdIsNoOp | src/App.tsx:50-53 | an UPDATE for an id the list does not hold leaves the list unchanged, so a row whose INSERT was missed never appears |
| Gifts.UpdateIdempotent | src/App.tsx:50-53 | applying the same UPDATE event twice gives the same list as applying it once |
| Gifts.DeleteRemovesExactly | src/App.tsx:54-55 | a DELETE event shortens the list by exactly the number of entries carrying the deleted id |
| Handlers.Target | src/App.tsx:113-114 | the handlers act on the first entry with the id, found only when some entry has it |
| Handlers.TogglePending | src/App.tsx:112-156 | a missing gift or one confirmed for me is a no-op; a gift confirmed for another, or in another guest's cart, only produces a notice; otherwise it sends the cart patch that flips my hold; on success every entry with the id gets the new holder; on failure every entry with the id gets back the holder the first match had, and the other entries stay |
| Handlers.CancelConfirmed | src/App.tsx:190-216 | only a gift confirmed for me is released; the local entry loses its owner, the store receives the full release patch, and a failure puts me back as owner |
| Handlers.ToggleAlreadyOwned | src/App.tsx:86-110 | the owned flag of the gift is negated locally and in the store, and restored locally when the store call fails |
| Handlers.ToggleRollbackRestores | src/App.tsx:148-155 | when the ids are unique, a failed cart toggle leaves the local list exactly as it was before the click |
| Handlers.ToggleRewritesOneEntry | src/App.tsx:135-140 | when the ids are unique, a successful cart toggle changes only the holder of the toggled entry |
| Handlers.ToggleTwiceRestores | src/App.tsx:135-147 | on a list with unique ids, toggling my own cart hold twice in a row returns the local list to where it started |
| Handlers.TogglePreservesExclusive | src/App.tsx:116-140 | on a list with unique ids, a cart toggle never makes a gift both chosen and in a cart, whatever the store answers |
| Handlers.ToggleAgreesWithFeed | src/App.tsx:135-147 | for a row whose confirmed state names a holder, the local entry after a successful toggle equals the entry the change feed delivers for the patched row |
| Handlers.StaleCartAddTakesConfirmedRow | src/App.tsx:135-147 | when my list still shows a gift as free after another guest confirmed it, my cart write succeeds, the row stays confirmed and now names me, so every client shows it as confirmed by me |
| Handlers.StaleCartRemoveOrphansConfirmedRow | src/App.tsx:135-147 | when my list still shows a gift in my cart after another guest confirmed it, my cart removal succeeds and leaves the row confirmed with no owner; it converts to a gift neither confirmed nor held |
| Handlers.CancelRollbackRestores | src/App.tsx:208-215 | when the ids are unique, a failed release leaves the local list exactly as it was |
| Handlers.CancelAgreesWithFeed | src/App.tsx:195-206 | the local entry after a release equals the entry the change feed delivers for the released row |
| Handlers.OwnedRollbackRestores | src/App.tsx:102-109 | when the ids are unique, a failed owned toggle leaves the local list exactly as it was |
| Handlers.OwnedAgreesWithFeed | src/App.tsx:90-100 | the local entry after an owned toggle equals the entry the change feed delivers for the updated row |
| Handlers.ConfirmPreview | src/App.tsx:158-164 | the preview lists, in list order, exactly the gifts in my cart, each as often as it occurs in the list, and flags as conflicts exactly those among them chosen by someone else, again with their multiplicity |
| Handlers.PreviewConflictsEmpty | src/App.tsx:161 | on any list where no entry is both chosen and in a cart, which every converted row satisfies, the local preview never reports a conflict |
| Handlers.PendingIds | src/App.tsx:167-169 | the batch asks for exactly the ids of the gifts in my cart, and asks for nothing iff my cart is empty |
| Handlers.FinalizeConfirmation | src/App.tsx:166-188 | an empty cart sends nothing; otherwise the batch call is sent with my cart's ids; conflicts in a successful read raise "some already chosen" and leave the table unchanged; a failed read, or a failed write after a clean read, raises the error notice and leaves the table unchanged; a clean read and write raise the success notice with every requested, explicitly unconfirmed row confirmed for me; rows outside my cart, and rows not explicitly unconfirmed, never change |
| Handlers.SuccessReportedForNullRow | src/lib/supabase.ts:117-124 | when my cart is not empty and every stored row of it has a null `is_confirmed`, finalizing reports success while the whole table stays exactly as it was, so none of my gifts is confirmed |
| Handlers.ToggledGiftGetsConfirmed | src/App.tsx:166-174 | a free gift added to my cart, with its row still explicitly unconfirmed, is confirmed for me by the next finalize, provided no other gift in my cart is stored as confirmed by someone else (such a conflict makes the whole batch write nothing) |
| Handlers.AddGiftRequest | src/App.tsx:218-237 | the insert is sent iff no listed gift has the same name after lower-casing and trimming; otherwise the user sees the duplicate notice; the local list is never touched |
| Handlers.AddRejectsPaddedDuplicate | src/App.tsx:220-227 | a name that differs from any listed one only by surrounding white space, of any kind and length, is refused as a duplicate |
| Text.NormalizeIgnoresPadding | src/App.tsx:221 | the duplicate-name key of a name padded on either side with any run of white space equals the key of the bare name |
| Text.TrimIgnoresPadding | src/App.tsx:221 | `trim()` of a string padded with any run of white space equals `trim()` of the string |
| Text.TrimIdempotent | src/components/AddGiftForm.tsx:21-22 | trimming an already trimmed name changes nothing, so the trimmed names the forms pass on are fixed points of trim |
| Handlers.FilteredGifts | src/App.tsx:239-243 | the filter keeps list order; "all" shows everything; "available" shows exactly the gifts that are not chosen, in no cart and not owned; "mine" shows exactly those chosen by me or in my cart; "available" and "mine" keep each shown gift as often as it occurs in the list |
| Handlers.StatsOf | src/App.tsx:245-250 | the counters satisfy mine ≤ chosen ≤ total, total is the list length, and my cart count is positive iff some gift is in my cart |
| Handlers.MineCountMatchesStats | src/App.tsx:239-250 | on a list where no gift is both confirmed and cart-held, the "mine" list is as long as my confirmed count plus my cart count |
| GiftCard.FlagsOf | src/components/GiftItem.tsx:16-20 | confirmed iff some non-empty name chose the gift, mine iff I chose it, by another iff a different non-empty name chose it, pending iff it is in my cart, available iff unconfirmed and not owned; for a non-empty guest name, a gift confirmed for me is never also available |
| GiftCard.Actions | src/components/GiftItem.tsx:75-127 | hosts see only the owned toggle; a guest sees exactly one action: "give up" iff the gift is confirmed for them, add/remove iff it is available (remove iff it is in their cart), "unavailable" otherwise |
| GiftCard.HostsNote | src/components/GiftItem.tsx:67-71 | the "hosts already own this" note shows iff the gift is owned and not chosen by someone else |
| GiftCard.NotedGiftOffersNoCart | src/components/GiftItem.tsx:67-127 | wherever the note shows, the guest's card offers no cart button: "give up" if the gift is confirmed for them, "unavailable" otherwise |
| GiftCard.CancelOutranksOwned | src/components/GiftItem.tsx:89-98 | a gift confirmed for me still offers "give up" even when the hosts mark it as owned |
| GiftCard.OwnedCartGiftCannotBeRemoved | src/components/GiftItem.tsx:99-126 | once a gift in my cart is marked owned, the card only shows "unavailable", so I cannot take it out of my cart from the card |
| GiftCard.OfferedButRefusedWhileOtherHolds | src/components/GiftItem.tsx:99-117 | a gift in another guest's cart still offers "add" on my card, yet the handler refuses with the "in someone's cart" notice and changes nothing |
| GiftCard.HandlerIgnoresOwnedMark | src/App.tsx:112-147 | the cart handler does not check the owned flag: for a free owned gift the card shows "unavailable", but the handler would still send a cart hold |
| GiftCard.OfferedCancelIsHonoured | src/App.tsx:190-206 | whenever the card offers "give up", the release handler does send the release patch |
| GiftCard.ReleasedGiftIsAvailable | src/App.tsx:200-206 | a released row that is not owned comes back through the feed as available, and my card offers "add" for it |
| GiftCard.AddedGiftIsAvailable | src/lib/supabase.ts:49-59 | a freshly added gift comes back through the feed as available to every guest |
| ConfirmDialog.ConfirmClick | src/components/ConfirmGiftsButton.tsx:27-31 | whatever the dialog held before, clicking confirm opens it on the fresh preview, and the footer offers the final confirm iff that preview has no conflicts |
| ConfirmDialog.Dismiss | src/components/ConfirmGiftsButton.tsx:69 | closing the dialog keeps the last preview |
| ConfirmDialog.FinalConfirm | src/components/ConfirmGiftsButton.tsx:33-39 | finalize fires iff a preview is held and it has no conflicts; then the dialog closes and forgets the preview, and otherwise nothing changes |
| ConfirmDialog.FooterOf | src/components/ConfirmGiftsButton.tsx:127-139 | the footer offers the confirm action iff there are no conflicts, and labels the cancel button "Entendi" iff there are |
| ConfirmDialog.ClickThenFinalize | src/components/ConfirmGiftsButton.tsx:27-39 | after clicking confirm, the final confirmation fires iff the fresh preview has no conflicts |
| ConfirmDialog.FinalizeAlwaysFiresOnExclusiveViews | src/components/ConfirmGiftsButton.tsx:27-39 | on a list where no gift is both chosen and in a cart, the confirm click followed by the final confirmation always fires the batch |
| ConfirmDialog.OfferedFinalizeAlwaysFires | src/components/ConfirmGiftsButton.tsx:27-41 | from the closed, empty dialog, no sequence of clicks, closes and final confirms reaches an open dialog without a preview; so whenever the open dialog offers the final confirm, pressing it fires |
| GiftList.Labels | src/components/GiftList.tsx:44 | the truthy categories of the list, each of which occurs on some gift, with every gift's truthy category among them |
| GiftList.Distinct | src/components/GiftList.tsx:44 | `Array.from(new Set(…))` keeps each value once, keeps every value, and keeps them in order of first occurrence |
| GiftList.Categories | src/components/GiftList.tsx:44 | the category headings are exactly the non-empty categories used by some gift, without repeats, in order of first use |
| GiftList.Uncategorized | src/components/GiftList.tsx:45 | the "Outros" card holds exactly the gifts without a truthy category |
| GiftList.CardsMatchCategories | src/components/GiftList.tsx:62-84 | there is one category card per heading, in heading order, and each holds exactly that category's gifts |
| GiftList.GroupsCoverList | src/components/GiftList.tsx:62-103 | the cards hold as many gifts in total as the list has |
| GiftList.GroupsKeepOrder | src/components/GiftList.tsx:62-103 | each card lists its gifts in list order |
| GiftList.GroupsAreDisjoint | src/components/GiftList.tsx:62-103 | every gift appears on some card, and no gift appears on two different cards |
| GiftList.ConfirmButtonShownIffCartNotEmpty | src/components/GiftList.tsx:53-59 | the confirm button is shown iff some gift is in my cart, which is iff the preview's cart list is non-empty |

## Left out

- A failed store call is modelled as having written nothing. A reply lost after the write committed
  is not modelled: the client would show the error notice, and roll back its local list, while the
  store kept the change. The clauses "an error leaves the table unchanged" in `Store.ConfirmGifts`,
  `Store.UpdateGift` and `Handlers.FinalizeConfirmation` rest on this abstraction.
- Network plumbing: building the client, the initial `loadGifts` query and its ordering, and the
  change-feed subscription transport. Each feed event is applied on its own by `Gifts.ApplyEvent`.
- Feed events that arrive while a handler awaits the store. The rollback `setGifts(gifts.map(...))`
  rebuilds the whole list from the snapshot taken before the call (src/App.tsx:106, 152, 212), so
  such events, even for other gifts, are lost when a call fails. The model applies handlers and
  events one at a time and does not show that loss.
- Running the handlers concurrently. Each handler runs against one snapshot of the local list. The
  race that matters, another client writing between the conflict read and the batch write, is
  modelled inside `Store.ConfirmGifts` by its two table states.
- Store errors other than reachability. `UpdateGift`'s not-found case is folded into the handler's
  single success flag, because the handlers treat every thrown error the same way.
- `initializeGifts`, the messages table, `sendMessage`, the key-value server, the host password
  check in the welcome dialog, the statistics percentage, and all markup, styling and toast wording.
  Toasts become `Notice` values.
- Row columns the core never reads: description, image URL, store link, estimated price, and the
  created/updated timestamps. Timestamps are opaque strings passed in as `now`.
- The forms' `trim` guards are modelled as the precondition `Text.ValidName`: a non-empty name
  equal to its own trim. The forms themselves are not modelled.
- Text.Lower: lower-cases ASCII letters only. JavaScript's `toLowerCase` applies full Unicode case
  mapping, which is not modelled.
- Handlers.StatsOf: states bounds and the cart-count equivalence rather than every count exactly,
  and it requires a valid guest name, which is the only kind the app passes.
- Handlers.ToggleRollbackRestores, Handlers.CancelRollbackRestores, Handlers.OwnedRollbackRestores:
  these hold only for lists with unique ids. `find` restores the first match, while `map` has
  rewritten every match, and the INSERT reducer can create duplicate ids.
- Handlers.ToggleTwiceRestores: requires the gift to start with no holder or with me as holder.
  A holder of `""` is falsy, so the first toggle replaces it with my name, and the second clears it
  to null rather than back to `""`.
- Handlers.ToggleAgreesWithFeed: requires the row to name a holder whenever it is confirmed.
  A confirmed row with a null holder is shown as unconfirmed, and a cart write would then leave it
  confirmed in the store.
- The host-only restriction on the owned toggle exists only in the card (`GiftCard.Actions`).
  `Handlers.ToggleAlreadyOwned` accepts any caller, as the code does.

## Behaviour worth knowing

- The INSERT reducer appends unconditionally, so a replayed INSERT duplicates the entry (`Gifts.InsertNotIdempotent`,
  `Gifts.InsertCanDuplicateIds`).
- The conflict check in `confirmGifts` looks only at confirmed rows. Another guest's cart hold is
  silently taken over by the batch (`Store.CartHoldOfOtherIsTakenOver`).
- The batch write matches only `is_confirmed = false`, never null. Rows with a null flag are
  skipped, and success is still reported (`Handlers.SuccessReportedForNullRow`,
  `Store.ZeroMatchStillSucceeds`).
- The cart write is an unconditional `updateGift`: it does not check `is_confirmed`. A guest
  whose list is out of date takes over a gift another guest has confirmed
  (`Handlers.StaleCartAddTakesConfirmedRow`), or leaves it confirmed with no owner
  (`Handlers.StaleCartRemoveOrphansConfirmedRow`).
- The cart handler does not check the owned flag. Only the card hides the action
  (`GiftCard.HandlerIgnoresOwnedMark`).
- A failed update rolls back the local change whatever the cause. It does not drop the entry when
  the row is gone.

=== FILE: confirm_dialog.dfy ===
/** The confirmation dialog: "Confirmar" opens it on a fresh preview, and the
    final confirm button hands over to the round trip only when the preview
    shows no conflicts. */
module ConfirmDialog {
  import opened Wrappers
  import opened Gifts
  import opened Handlers
  import Text

  datatype Dialog = Dialog(open: bool, result: Option<Preview>)

  const Initial: Dialog := Dialog(false, None)

  /** `handleConfirmClick`: whatever the dialog held before, it opens on the
      fresh preview, and its footer offers the final confirm exactly when that
      preview has no conflicts. */
  function ConfirmClick(preview: Preview): (d': Dialog)
    ensures d'.open && d'.result == Some(preview)
    ensures FooterOf(d').showFinalize <==> |preview.conflicts| == 0
  {
    Dialog(true, Some(preview))
  }

  /** The cancel button and the dialog's own close request hide it without
      clearing the stored preview. */
  function Dismiss(d: Dialog): (d': Dialog)
    ensures !d'.open && d'.result == d.result
  {
    d.(open := false)
  }

  predicate HasConflicts(d: Dialog)
  {
    d.result.Some? && |d.result.value.conflicts| > 0
  }

  /** `handleFinalConfirm`: returns the next dialog state and whether
      `onFinalize` was invoked. */
  function FinalConfirm(d: Dialog): (r: (Dialog, bool))
    ensures r.1 <==> d.result.Some? && |d.result.value.conflicts| == 0
    ensures r.1 ==> r.0 == Initial
    ensures !r.1 ==> r.0 == d
  {
    if d.result.Some? && |d.result.value.conflicts| == 0 then (Initial, true) else (d, false)
  }

  datatype Footer = Footer(cancelLabel: string, showFinalize: bool)

  /** The dialog footer: the finalize button only without conflicts, and the
      cancel button reads "Entendi" with conflicts and "Cancelar" without. */
  function FooterOf(d: Dialog): (f: Footer)
    ensures f.showFinalize <==> !HasConflicts(d)
    ensures f.cancelLabel == "Entendi" <==> HasConflicts(d)
    ensures f.cancelLabel == "Entendi" || f.cancelLabel == "Cancelar"
  {
    if HasConflicts(d) then Footer("Entendi", false) else Footer("Cancelar", true)
  }

  /** Clicking "Confirmar" opens the dialog on the current preview, and a
      finalize that follows fires exactly when that preview has no conflicts,
      leaving the dialog closed and empty. */
  lemma ClickThenFinalize(view: seq<GiftItem>, guest: string)
    ensures var shown := ConfirmClick(ConfirmPreview(view, guest));
      && shown.open && shown.result == Some(ConfirmPreview(view, guest))
      && (FinalConfirm(shown).1 <==> |ConfirmPreview(view, guest).conflicts| == 0)
      && (FinalConfirm(shown).1 ==> FinalConfirm(shown).0 == Initial)
      && (FooterOf(shown).showFinalize <==> FinalConfirm(shown).1)
  {
  }

  /** On a list of converted rows the preview never conflicts, so the
      finalize button is always shown and always fires. */
  lemma FinalizeAlwaysFiresOnExclusiveViews(view: seq<GiftItem>, guest: string)
    requires Text.ValidName(guest) && AllExclusive(view)
    ensures var shown := ConfirmClick(ConfirmPreview(view, guest));
      FooterOf(shown).showFinalize && FinalConfirm(shown) == (Initial, true)
  {
    PreviewConflictsEmpty(view, guest);
  }

  /** What the user can do to the dialog: click "Confirmar" on the current
      preview, close it, or press the final confirm. */
  datatype UiEvent = Click(preview: Preview) | Close | Finalize

  function Step(d: Dialog, e: UiEvent): Dialog
  {
    match e
    case Click(p) => ConfirmClick(p)
    case Close => Dismiss(d)
    case Finalize => FinalConfirm(d).0
  }

  function Run(d: Dialog, events: seq<UiEvent>): Dialog
    decreases |events|
  {
    if events == [] then d else Run(Step(d, events[0]), events[1..])
  }

  /** An open dialog always holds a preview. */
  predicate Consistent(d: Dialog)
  {
    d.open ==> d.result.Some?
  }

  lemma {:induction false} RunKeepsConsistent(d: Dialog, events: seq<UiEvent>)
    requires Consistent(d)
    ensures Consistent(Run(d, events))
    decreases |events|
  {
    if events != [] {
      RunKeepsConsistent(Step(d, events[0]), events[1..]);
    }
  }

  /** From the closed, empty dialog no sequence of clicks reaches an open
      dialog without a preview, so whenever the open dialog's footer offers
      the final confirm, pressing it fires: the preview test in
      `handleFinalConfirm` never blocks a reachable state. */
  lemma {:induction false} OfferedFinalizeAlwaysFires(events: seq<UiEvent>)
    ensures var d := Run(Initial, events);
      Consistent(d) && (d.open && FooterOf(d).showFinalize ==> FinalConfirm(d).1)
  {
    RunKeepsConsistent(Initial, events);
  }
}

=== FILE: gift_card.dfy ===
/** The per-gift card: the state flags it derives and the single button a
    guest is offered, or the admin's already-owned toggle. */
module GiftCard {
  import opened Wrappers
  import opened Js
  import opened Store
  import opened Gifts
  import opened Handlers
  import Text

  datatype Flags = Flags(
    isConfirmed: bool,
    isConfirmedByMe: bool,
    isConfirmedByOther: bool,
    isPendingByMe: bool,
    isAvailable: bool)

  /** The card's derived flags. Availability looks only at confirmation and
      the owned mark, not at cart holds. */
  function FlagsOf(g: GiftItem, me: string): (f: Flags)
    ensures f.isConfirmed <==> Truthy(g.selectedBy)
    ensures f.isConfirmedByOther <==> Truthy(g.selectedBy) && g.selectedBy.value != me
    ensures f.isAvailable <==> !Truthy(g.selectedBy) && !g.alreadyOwned
    ensures f.isConfirmedByMe <==> g.selectedBy == Some(me)
    ensures f.isPendingByMe <==> g.pendingBy == Some(me)
    ensures me != "" ==> !(f.isConfirmedByMe && f.isAvailable)
  {
    var confirmed := Truthy(g.selectedBy);
    var mine := g.selectedBy == Some(me);
    Flags(confirmed, mine, confirmed && !mine, g.pendingBy == Some(me), !confirmed && !g.alreadyOwned)
  }

  /** The buttons a card renders. `OwnedToggle` carries the current mark,
      which picks its label. */
  datatype Action = Cancel | AddToCart | RemoveFromCart | Unavailable | OwnedToggle(owned: bool)

  /** The admin sees only the owned toggle; a guest sees exactly one button:
      cancel when the gift is confirmed by them, otherwise the cart toggle
      when it is available, otherwise a disabled "Indisponível". */
  function Actions(g: GiftItem, me: string, isAdmin: bool): (acts: seq<Action>)
    ensures isAdmin ==> acts == [OwnedToggle(g.alreadyOwned)]
    ensures !isAdmin ==> |acts| == 1 && !acts[0].OwnedToggle?
    ensures !isAdmin ==> (acts[0] == Cancel <==> FlagsOf(g, me).isConfirmedByMe)
    ensures !isAdmin ==> (acts[0] in {AddToCart, RemoveFromCart} <==> !FlagsOf(g, me).isConfirmedByMe && FlagsOf(g, me).isAvailable)
    ensures !isAdmin && acts[0] in {AddToCart, RemoveFromCart} ==> (acts[0] == RemoveFromCart <==> g.pendingBy == Some(me))
  {
    var f := FlagsOf(g, me);
    if isAdmin then [OwnedToggle(g.alreadyOwned)]
    else if f.isConfirmedByMe then [Cancel]
    else if f.isAvailable then [if f.isPendingByMe then RemoveFromCart else AddToCart]
    else [Unavailable]
  }

  /** The "hosts already own this" note. */
  function HostsNote(g: GiftItem, me: string): (shown: bool)
    ensures shown <==> g.alreadyOwned && !(Truthy(g.selectedBy) && g.selectedBy.value != me)
  {
    g.alreadyOwned && !FlagsOf(g, me).isConfirmedByOther
  }

  /** Wherever the note shows, the guest's card offers no cart button: it
      offers "Desistir" when the gift is confirmed for them and the disabled
      "Indisponível" otherwise. */
  lemma NotedGiftOffersNoCart(g: GiftItem, me: string)
    requires HostsNote(g, me)
    ensures Actions(g, me, false) == [if g.selectedBy == Some(me) then Cancel else Unavailable]
  {
  }

  /** Confirmation by me outranks the owned mark: cancel stays on offer. */
  lemma CancelOutranksOwned(g: GiftItem, me: string)
    requires g.selectedBy == Some(me) && g.alreadyOwned
    ensures Actions(g, me, false) == [Cancel]
  {
  }

  /** A gift in my cart that the hosts mark as owned offers no remove button. */
  lemma OwnedCartGiftCannotBeRemoved(g: GiftItem, me: string)
    requires g.pendingBy == Some(me) && g.alreadyOwned && g.selectedBy != Some(me)
    ensures Actions(g, me, false) == [Unavailable]
    ensures RemoveFromCart !in Actions(g, me, false)
  {
  }

  /** The card offers "Adicionar" on a gift another guest holds in a cart,
      and pressing it is refused by the handler with a notice naming that guest. */
  lemma OfferedButRefusedWhileOtherHolds(view: seq<GiftItem>, me: string, id: int, now: Stamp, storeOk: bool)
    requires Text.ValidName(me)
    requires Target(view, id).Some?
    requires var g := Target(view, id).value; !IsSelected(g) && !g.alreadyOwned && HeldByOther(g, me)
    ensures var g := Target(view, id).value;
      && Actions(g, me, false) == [AddToCart]
      && TogglePending(view, me, id, now, storeOk) == Outcome(view, Some(InCartOf(g.pendingBy.value)), None)
  {
  }

  /** The handler itself does not look at the owned mark: a toggle on an owned
      gift that nobody confirmed or holds still reaches the store, although the
      card shows only the disabled button. */
  lemma HandlerIgnoresOwnedMark(view: seq<GiftItem>, me: string, id: int, now: Stamp, storeOk: bool)
    requires Text.ValidName(me)
    requires Target(view, id).Some?
    requires var g := Target(view, id).value; g.alreadyOwned && !IsSelected(g) && g.pendingBy.None?
    ensures Actions(Target(view, id).value, me, false) == [Unavailable]
    ensures TogglePending(view, me, id, now, storeOk).call == Some(UpdateCall(id, CartPatch(true, Some(me), Some(now))))
  {
  }

  /** Every cancel button the card offers is honoured by the handler. */
  lemma OfferedCancelIsHonoured(view: seq<GiftItem>, me: string, id: int, storeOk: bool)
    requires Text.ValidName(me)
    requires Target(view, id).Some? && Actions(Target(view, id).value, me, false) == [Cancel]
    ensures CancelConfirmed(view, me, id, storeOk).call == Some(UpdateCall(id, ReleasePatch))
  {
  }

  /** Once a cancellation has been written, the feed shows the gift free again:
      available, with the cart button on offer, unless the hosts own it. */
  lemma ReleasedGiftIsAvailable(r: Row, me: string)
    requires !IsTrue(r.alreadyOwned)
    ensures var g := ConvertGiftRow(ApplyPatch(r, ReleasePatch));
      FlagsOf(g, me).isAvailable && Actions(g, me, false) == [AddToCart]
  {
  }

  /** A freshly added gift reaches every guest as available, with the cart
      button on offer, and is grouped under "Outros" when no category was chosen. */
  lemma AddedGiftIsAvailable(t: Table, id: int, name: string, category: Option<string>, me: string)
    requires id !in t
    ensures var r := AddGift(t, id, name, category, true);
      var g := ConvertGiftRow(r.value[id]);
      && g.selectedBy.None? && g.pendingBy.None? && !g.alreadyOwned
      && Actions(g, me, false) == [AddToCart]
      && (Truthy(g.category) <==> Truthy(category))
  {
  }
}

=== FILE: gift_list.dfy ===
/** The list page: gifts grouped into one card per category in first-seen
    order plus an "Outros" card for the uncategorised ones, and the condition
    for showing the cart's confirm button. */
module GiftList {
  import opened Wrappers
  import opened Js
  import opened Gifts
  import opened Handlers
  import Seqs
  import Text

  /** `gifts.map(g => g.category).filter(Boolean)`: the non-empty categories, in list order. */
  function Labels(view: seq<GiftItem>): (r: seq<string>)
    ensures forall c :: c in r ==> c != ""
    ensures forall c :: c in r ==> exists i :: 0 <= i < |view| && view[i].category == Some(c)
    ensures forall i :: 0 <= i < |view| && Truthy(view[i].category) ==> view[i].category.value in r
  {
    if |view| == 0 then []
    else
      var rest := Labels(view[1..]);
      assert forall c :: c in rest ==> exists i :: 0 <= i < |view| && view[i].category == Some(c) by {
        forall c | c in rest ensures exists i :: 0 <= i < |view| && view[i].category == Some(c) {
          var j :| 0 <= j < |view[1..]| && view[1..][j].category == Some(c);
          assert view[j + 1].category == Some(c);
        }
      }
      assert forall i :: 1 <= i < |view| ==> view[i] == view[1..][i - 1];
      (if Truthy(view[0].category) then [view[0].category.value] else []) + rest
  }

  /** The position of the first occurrence of `x`. */
  function IndexOf(s: seq<string>, x: string): (k: nat)
    requires x in s
    ensures k < |s| && s[k] == x
    ensures forall j :: 0 <= j < k ==> s[j] != x
  {
    if s[0] == x then 0 else 1 + IndexOf(s[1..], x)
  }

  lemma {:induction false} IndexOfExtend(s: seq<string>, y: string, x: string)
    requires x in s
    ensures x in s + [y] && IndexOf(s + [y], x) == IndexOf(s, x)
  {
    if s[0] != x {
      assert (s + [y])[1..] == s[1..] + [y];
      IndexOfExtend(s[1..], y, x);
    }
  }

  /** `Array.from(new Set(s))`: each value once, in order of first occurrence. */
  function Distinct(s: seq<string>): (r: seq<string>)
    ensures forall x :: x in r <==> x in s
    ensures forall i, j :: 0 <= i < j < |r| ==> r[i] != r[j]
    ensures forall i, j :: 0 <= i < j < |r| ==> IndexOf(s, r[i]) < IndexOf(s, r[j])
    decreases |s|
  {
    if |s| == 0 then []
    else
      var front := s[..|s| - 1];
      var x := s[|s| - 1];
      assert s == front + [x];
      var d := Distinct(front);
      forall y | y in front ensures IndexOf(s, y) == IndexOf(front, y) {
        IndexOfExtend(front, x, y);
      }
      if x in d then d
      else
        assert x !in front;
        assert IndexOf(s, x) == |front|;
        d + [x]
  }

  /** `categories`. */
  function Categories(view: seq<GiftItem>): (cats: seq<string>)
    ensures forall c :: c in cats <==> c in Labels(view)
    ensures forall c :: c in cats ==> c != ""
    ensures forall i, j :: 0 <= i < j < |cats| ==> cats[i] != cats[j]
    ensures forall i :: 0 <= i < |view| && Truthy(view[i].category) ==> view[i].category.value in cats
    ensures forall c :: c in cats ==> exists i :: 0 <= i < |view| && view[i].category == Some(c)
    ensures forall i, j :: 0 <= i < j < |cats| ==>
      IndexOf(Labels(view), cats[i]) < IndexOf(Labels(view), cats[j])
  {
    Distinct(Labels(view))
  }

  function InCategory(c: string): GiftItem -> bool
  {
    (g: GiftItem) => g.category == Some(c)
  }

  predicate HasCategory(g: GiftItem)
  {
    Truthy(g.category)
  }

  predicate NoCategory(g: GiftItem)
  {
    !Truthy(g.category)
  }

  /** `uncategorized`. */
  function Uncategorized(view: seq<GiftItem>): (r: seq<GiftItem>)
    ensures forall g :: g in r <==> g in view && !Truthy(g.category)
  {
    Seqs.Filter(view, NoCategory)
  }

  /** A rendered card: a category with its gifts, or "Outros". */
  datatype Group = CategoryCard(category: string, gifts: seq<GiftItem>) | OthersCard(gifts: seq<GiftItem>)

  /** `categories.map(...)`: one card per category, none for a category with no gifts. */
  function CategoryCards(view: seq<GiftItem>, cats: seq<string>): seq<Group>
  {
    if |cats| == 0 then []
    else
      var gifts := Seqs.Filter(view, InCategory(cats[0]));
      (if |gifts| == 0 then [] else [CategoryCard(cats[0], gifts)]) + CategoryCards(view, cats[1..])
  }

  /** Every card the list renders, in order. */
  function Groups(view: seq<GiftItem>): seq<Group>
  {
    var others := Uncategorized(view);
    CategoryCards(view, Categories(view)) + (if |others| > 0 then [OthersCard(others)] else [])
  }

  function SumSizes(gs: seq<Group>): nat
  {
    if |gs| == 0 then 0 else |gs[0].gifts| + SumSizes(gs[1..])
  }

  /** Number of category cards a gift falls into. */
  function Occurrences(g: GiftItem, cats: seq<string>): nat
  {
    if |cats| == 0 then 0 else (if g.category == Some(cats[0]) then 1 else 0) + Occurrences(g, cats[1..])
  }

  /** Total size of the per-category selections. */
  function CategoryTotal(view: seq<GiftItem>, cats: seq<string>): nat
  {
    if |cats| == 0 then 0 else |Seqs.Filter(view, InCategory(cats[0]))| + CategoryTotal(view, cats[1..])
  }

  lemma {:induction false} SumSizesAppend(a: seq<Group>, b: seq<Group>)
    ensures SumSizes(a + b) == SumSizes(a) + SumSizes(b)
  {
    if |a| == 0 {
      assert a + b == b;
    } else {
      assert (a + b)[0] == a[0];
      assert (a + b)[1..] == a[1..] + b;
      SumSizesAppend(a[1..], b);
    }
  }

  lemma {:induction false} CardsSize(view: seq<GiftItem>, cats: seq<string>)
    ensures SumSizes(CategoryCards(view, cats)) == CategoryTotal(view, cats)
  {
    if |cats| > 0 {
      var gifts := Seqs.Filter(view, InCategory(cats[0]));
      var head: seq<Group> := if |gifts| == 0 then [] else [CategoryCard(cats[0], gifts)];
      CardsSize(view, cats[1..]);
      SumSizesAppend(head, CategoryCards(view, cats[1..]));
    }
  }

  lemma {:induction false} CategoryTotalCons(g: GiftItem, rest: seq<GiftItem>, cats: seq<string>)
    ensures CategoryTotal([g] + rest, cats) == CategoryTotal(rest, cats) + Occurrences(g, cats)
  {
    if |cats| > 0 {
      assert ([g] + rest)[0] == g && ([g] + rest)[1..] == rest;
      CategoryTotalCons(g, rest, cats[1..]);
    }
  }

  lemma {:induction false} OccurrencesDistinct(g: GiftItem, cats: seq<string>)
    requires forall i, j :: 0 <= i < j < |cats| ==> cats[i] != cats[j]
    requires forall c :: c in cats ==> c != ""
    ensures Occurrences(g, cats) == if Truthy(g.category) && g.category.value in cats then 1 else 0
  {
    if |cats| > 0 {
      assert forall c :: c in cats[1..] ==> c in cats;
      assert forall i, j :: 0 <= i < j < |cats[1..]| ==> cats[1..][i] == cats[i + 1] && cats[1..][j] == cats[j + 1];
      OccurrencesDistinct(g, cats[1..]);
      assert cats[0] !in cats[1..];
      assert cats[0] in cats;
      if g.category == Some(cats[0]) {
        assert Truthy(g.category) && g.category.value !in cats[1..];
      } else if Truthy(g.category) && g.category.value in cats {
        assert g.category.value in cats[1..];
      }
    }
  }

  /** With distinct, non-empty, covering categories, the category cards hold
      exactly as many gifts as the list has categorised gifts. */
  lemma {:induction false} CategoryTotalCovers(view: seq<GiftItem>, cats: seq<string>)
    requires forall i, j :: 0 <= i < j < |cats| ==> cats[i] != cats[j]
    requires forall c :: c in cats ==> c != ""
    requires forall i :: 0 <= i < |view| && Truthy(view[i].category) ==> view[i].category.value in cats
    ensures CategoryTotal(view, cats) == |Seqs.Filter(view, HasCategory)|
  {
    if |view| > 0 {
      var g := view[0];
      var rest := view[1..];
      assert view == [g] + rest;
      assert forall i :: 0 <= i < |rest| ==> rest[i] == view[i + 1];
      CategoryTotalCovers(rest, cats);
      CategoryTotalCons(g, rest, cats);
      OccurrencesDistinct(g, cats);
    } else {
      CategoryTotalEmpty(cats);
    }
  }

  lemma {:induction false} CategoryTotalEmpty(cats: seq<string>)
    ensures CategoryTotal([], cats) == 0
  {
    if |cats| > 0 {
      CategoryTotalEmpty(cats[1..]);
    }
  }

  /** Every category card is non-empty, so there is exactly one card per category. */
  lemma {:induction false} CardsMatchCategories(view: seq<GiftItem>, cats: seq<string>)
    requires forall c :: c in cats ==> exists i :: 0 <= i < |view| && view[i].category == Some(c)
    ensures |CategoryCards(view, cats)| == |cats|
    ensures forall k :: 0 <= k < |cats| ==>
      CategoryCards(view, cats)[k] == CategoryCard(cats[k], Seqs.Filter(view, InCategory(cats[k])))
  {
    if |cats| > 0 {
      var i :| 0 <= i < |view| && view[i].category == Some(cats[0]);
      assert view[i] in Seqs.Filter(view, InCategory(cats[0]));
      assert forall c :: c in cats[1..] ==> c in cats;
      CardsMatchCategories(view, cats[1..]);
    }
  }

  /** The cards together hold exactly as many gifts as the list. */
  lemma GroupsCoverList(view: seq<GiftItem>)
    ensures SumSizes(Groups(view)) == |view|
  {
    var cats := Categories(view);
    var others := Uncategorized(view);
    var cards := CategoryCards(view, cats);
    var tail: seq<Group> := if |others| > 0 then [OthersCard(others)] else [];
    assert Groups(view) == cards + tail;
    SumSizesAppend(cards, tail);
    CardsSize(view, cats);
    CategoryTotalCovers(view, cats);
    Seqs.FilterComplement(view, HasCategory, NoCategory);
    assert SumSizes(tail) == |others|;
  }

  /** Each card lists its gifts in list order. */
  lemma GroupsKeepOrder(view: seq<GiftItem>)
    ensures forall k :: 0 <= k < |Groups(view)| ==> Seqs.IsSubsequence(Groups(view)[k].gifts, view)
  {
    var cats := Categories(view);
    var others := Uncategorized(view);
    var cards := CategoryCards(view, cats);
    var gs := Groups(view);
    CardsMatchCategories(view, cats);
    forall k | 0 <= k < |gs| ensures Seqs.IsSubsequence(gs[k].gifts, view) {
      if k < |cards| {
        assert gs[k] == cards[k];
        Seqs.FilterIsSubsequence(view, InCategory(cats[k]));
      } else {
        assert gs[k] == OthersCard(others);
        Seqs.FilterIsSubsequence(view, NoCategory);
      }
    }
  }

  /** Each gift of the list lies in exactly one card: its category's, or "Outros". */
  lemma GroupsAreDisjoint(view: seq<GiftItem>, g: GiftItem)
    requires g in view
    ensures exists k :: 0 <= k < |Groups(view)| && g in Groups(view)[k].gifts
    ensures forall k1, k2 ::
      (0 <= k1 < |Groups(view)| && 0 <= k2 < |Groups(view)| &&
       g in Groups(view)[k1].gifts && g in Groups(view)[k2].gifts) ==> k1 == k2
  {
    var cats := Categories(view);
    var others := Uncategorized(view);
    var cards := CategoryCards(view, cats);
    var gs := Groups(view);
    CardsMatchCategories(view, cats);
    assert |gs| <= |cats| + 1;
    forall k | 0 <= k < |gs|
      ensures g in gs[k].gifts <==> if k < |cats| then g.category == Some(cats[k]) else !Truthy(g.category)
    {
      if k < |cats| {
        assert gs[k] == cards[k];
      } else {
        assert gs[k] == OthersCard(others);
      }
    }
    if Truthy(g.category) {
      var k := IndexOf(cats, g.category.value);
      assert g in gs[k].gifts;
    } else {
      assert g in others;
      assert gs[|cats|] == OthersCard(others);
    }
    forall k1, k2 | 0 <= k1 < |gs| && 0 <= k2 < |gs| && g in gs[k1].gifts && g in gs[k2].gifts
      ensures k1 == k2
    {
      if k1 < |cats| && k2 < |cats| {
        assert cats[k1] == cats[k2];
      }
    }
  }

  /** The cart's confirm button appears when the guest holds anything in a cart. */
  function ShowConfirmButton(s: Stats): bool
  {
    s.myPending > 0
  }

  lemma ConfirmButtonShownIffCartNotEmpty(view: seq<GiftItem>, guest: string)
    requires Text.ValidName(guest)
    ensures ShowConfirmButton(StatsOf(view, guest)) <==> exists i :: 0 <= i < |view| && view[i].pendingBy == Some(guest)
    ensures ShowConfirmButton(StatsOf(view, guest)) <==> |ConfirmPreview(view, guest).pendingGifts| > 0
  {
    var p := ConfirmPreview(view, guest);
    if |p.pendingGifts| > 0 {
      assert p.pendingGifts[0] in p.pendingGifts;
    }
    assert forall i :: 0 <= i < |view| && view[i].pendingBy == Some(guest) ==> view[i] in p.pendingGifts;
  }
}

=== FILE: gifts.dfy ===
/** The client's view of the gift list: the `GiftItem` record, its projection
    from a stored row, and the realtime reducer that folds store events into
    the local list. */
module Gifts {
  import opened Wrappers
  import opened Js
  import opened Store
  import Seqs

  /** One gift as the interface sees it. `selectedBy` names a confirmed owner,
      `pendingBy` a guest holding the gift in a cart. */
  datatype GiftItem = GiftItem(
    id: int,
    name: string,
    category: Option<string>,
    selectedBy: Option<string>,
    pendingBy: Option<string>,
    alreadyOwned: bool)

  /** Somebody has confirmed the gift (the interface's `!!gift.selectedBy`). */
  predicate IsSelected(g: GiftItem)
  {
    Truthy(g.selectedBy)
  }

  /** A guest other than `guest` holds the gift in a cart. */
  predicate HeldByOther(g: GiftItem, guest: string)
  {
    Truthy(g.pendingBy) && g.pendingBy != Some(guest)
  }

  /** A gift never shows both a confirmed owner and a cart holder. */
  predicate Exclusive(g: GiftItem)
  {
    !(Truthy(g.selectedBy) && Truthy(g.pendingBy))
  }

  predicate AllExclusive(view: seq<GiftItem>)
  {
    forall i :: 0 <= i < |view| ==> Exclusive(view[i])
  }

  predicate UniqueIds(view: seq<GiftItem>)
  {
    forall i, j :: 0 <= i < j < |view| ==> view[i].id != view[j].id
  }

  /** `convertGiftRow`: a confirmation shows as `selectedBy`, an unconfirmed
      reservation as `pendingBy`, and null flags read as false. */
  function ConvertGiftRow(row: Row): (g: GiftItem)
    ensures g.id == row.id && g.name == row.name
    ensures g.selectedBy.Some? <==> IsTrue(row.isConfirmed) && row.reservedBy.Some?
    ensures g.selectedBy.Some? ==> g.selectedBy == row.reservedBy
    ensures g.pendingBy.Some? <==> IsTrue(row.isReserved) && !IsTrue(row.isConfirmed) && row.reservedBy.Some?
    ensures g.pendingBy.Some? ==> g.pendingBy == row.reservedBy
    ensures !(g.selectedBy.Some? && g.pendingBy.Some?)
    ensures g.alreadyOwned <==> IsTrue(row.alreadyOwned)
    ensures Truthy(g.category) <==> Truthy(row.category)
    ensures g.category.Some? ==> g.category == row.category
  {
    GiftItem(
      row.id,
      row.name,
      OrNull(row.category),
      if IsTrue(row.isConfirmed) then row.reservedBy else None,
      if IsTrue(row.isReserved) && !IsTrue(row.isConfirmed) then row.reservedBy else None,
      IsTrue(row.alreadyOwned))
  }

  /** `gifts.find(g => g.id === id)`: the index of the FIRST entry with that id. */
  function FindIndex(view: seq<GiftItem>, id: int): (r: Option<nat>)
    ensures r.None? <==> forall i :: 0 <= i < |view| ==> view[i].id != id
    ensures r.Some? ==> r.value < |view| && view[r.value].id == id
    ensures r.Some? ==> forall j :: 0 <= j < r.value ==> view[j].id != id
  {
    if |view| == 0 then None
    else if view[0].id == id then Some(0)
    else match FindIndex(view[1..], id)
      case None => None
      case Some(j) => Some(j + 1)
  }

  /** `gifts.map(g => g.id === id ? f(g) : g)`: EVERY entry with that id is rewritten. */
  function UpdateWhere(view: seq<GiftItem>, id: int, f: GiftItem -> GiftItem): (r: seq<GiftItem>)
    ensures |r| == |view|
    ensures forall i :: 0 <= i < |view| ==> r[i] == (if view[i].id == id then f(view[i]) else view[i])
  {
    if |view| == 0 then []
    else [if view[0].id == id then f(view[0]) else view[0]] + UpdateWhere(view[1..], id, f)
  }

  /** The field rewrites the handlers apply with `UpdateWhere`. */
  function SetPending(holder: Option<string>): GiftItem -> GiftItem
  {
    (g: GiftItem) => g.(pendingBy := holder)
  }

  function SetSelected(owner: Option<string>): GiftItem -> GiftItem
  {
    (g: GiftItem) => g.(selectedBy := owner)
  }

  function SetOwned(owned: bool): GiftItem -> GiftItem
  {
    (g: GiftItem) => g.(alreadyOwned := owned)
  }

  /** The entries whose id is not `id`. */
  function OtherId(id: int): GiftItem -> bool
  {
    (g: GiftItem) => g.id != id
  }

  function SameId(id: int): GiftItem -> bool
  {
    (g: GiftItem) => g.id == id
  }

  /** A change-feed payload: the new row for INSERT and UPDATE, the old id for DELETE. */
  datatype FeedEvent = Insert(newRow: Row) | Update(newRow: Row) | Delete(oldId: int)

  /** The realtime reducer of the application's subscription callback: INSERT
      appends the converted row whether or not its id is already listed, UPDATE
      replaces every entry carrying the row's id in place, and DELETE drops every
      entry with the old id, keeping the rest in order. */
  function ApplyEvent(view: seq<GiftItem>, e: FeedEvent): (r: seq<GiftItem>)
    ensures e.Insert? ==> |r| == |view| + 1 && r[..|view|] == view && r[|view|] == ConvertGiftRow(e.newRow)
    ensures e.Update? ==> |r| == |view| && forall i :: 0 <= i < |view| ==>
      r[i] == if view[i].id == e.newRow.id then ConvertGiftRow(e.newRow) else view[i]
    ensures e.Delete? ==> Seqs.IsSubsequence(r, view) && forall g :: g in r <==> g in view && g.id != e.oldId
  {
    match e
    case Insert(row) =>
      assert (view + [ConvertGiftRow(row)])[..|view|] == view;
      view + [ConvertGiftRow(row)]
    case Update(row) => UpdateWhere(view, row.id, _ => ConvertGiftRow(row))
    case Delete(id) =>
      Seqs.FilterIsSubsequence(view, OtherId(id));
      Seqs.Filter(view, OtherId(id))
  }

  /** A re-delivered INSERT is therefore not idempotent: the list grows twice. */
  lemma InsertNotIdempotent(view: seq<GiftItem>, row: Row)
    ensures var once := ApplyEvent(view, Insert(row));
      var twice := ApplyEvent(once, Insert(row));
      |twice| == |view| + 2 && twice != once
  {
  }

  /** And an INSERT for an id already listed leaves two entries with that id. */
  lemma InsertCanDuplicateIds(view: seq<GiftItem>, row: Row)
    requires exists i :: 0 <= i < |view| && view[i].id == row.id
    ensures !UniqueIds(ApplyEvent(view, Insert(row)))
  {
    var i :| 0 <= i < |view| && view[i].id == row.id;
    var r := ApplyEvent(view, Insert(row));
    assert r[i] == view[i] && r[|view|] == ConvertGiftRow(row);
  }

  /** An UPDATE for an id the list does not hold changes nothing: a row the
      client never saw inserted stays invisible. */
  lemma UpdateOfUnlistedIdIsNoOp(view: seq<GiftItem>, row: Row)
    requires FindIndex(view, row.id).None?
    ensures ApplyEvent(view, Update(row)) == view
  {
    var r := ApplyEvent(view, Update(row));
    assert forall i :: 0 <= i < |view| ==> r[i] == view[i];
  }

  /** Re-delivering the same UPDATE changes nothing. */
  lemma UpdateIdempotent(view: seq<GiftItem>, row: Row)
    ensures ApplyEvent(ApplyEvent(view, Update(row)), Update(row)) == ApplyEvent(view, Update(row))
  {
    var once := ApplyEvent(view, Update(row));
    var twice := ApplyEvent(once, Update(row));
    assert forall i :: 0 <= i < |view| ==> twice[i] == once[i];
  }

  /** DELETE shrinks the list by exactly the number of entries carrying the id. */
  lemma {:induction false} DeleteRemovesExactly(view: seq<GiftItem>, id: int)
    ensures |ApplyEvent(view, Delete(id))| + |Seqs.Filter(view, SameId(id))| == |view|
  {
    Seqs.FilterComplement(view, OtherId(id), SameId(id));
  }
}

=== FILE: handlers.dfy ===
/** The guest and admin actions of the application shell: each one checks its
    guard against the local list, applies an optimistic change, issues one
    store call and, when that call fails, writes back the value it saw before
    the call. Also the list filter, the counters, the confirmation preview and
    the batch confirmation round trip. */
module Handlers {
  import opened Wrappers
  import opened Js
  import opened Store
  import opened Gifts
  import Seqs
  import Text

  /** The transient notices the handlers raise. */
  datatype Notice =
    | ChosenBy(guest: string)
    | InCartOf(guest: string)
    | CartError
    | OwnedMarked | OwnedCleared | OwnedError
    | Released | ReleaseError
    | DuplicateName(name: string)
    | GiftAdded | AddError
    | SomeAlreadyChosen | GiftsConfirmed | ConfirmError

  /** The store call a handler issues, if any. */
  datatype Call =
    | UpdateCall(id: int, patch: Patch)
    | InsertCall(name: string, category: Option<string>)
    | ConfirmCall(guest: string, ids: seq<int>)

  /** What one action leaves behind: the local list once the store call has
      settled, the notice shown, and the store call made. */
  datatype Outcome = Outcome(view: seq<GiftItem>, notice: Option<Notice>, call: Option<Call>)

  /** The gift an id names, as `gifts.find` sees it. */
  function Target(view: seq<GiftItem>, id: int): (r: Option<GiftItem>)
    ensures r.None? <==> forall i :: 0 <= i < |view| ==> view[i].id != id
    ensures r.Some? ==> r.value in view && r.value.id == id
    ensures r.Some? ==> exists i :: 0 <= i < |view| && view[i] == r.value && forall j :: 0 <= j < i ==> view[j].id != id
  {
    match FindIndex(view, id)
    case None => None
    case Some(i) => Some(view[i])
  }

  /** The cart holder a toggle writes: off when it was mine, me otherwise. */
  function NewHolder(g: GiftItem, guest: string): Option<string>
  {
    if g.pendingBy == Some(guest) then None else Some(guest)
  }

  function CartPatchFor(holder: Option<string>, now: Stamp): Patch
  {
    CartPatch(holder.Some?, holder, if holder.Some? then Some(now) else None)
  }

  /** The guard `handleTogglePending` passes: the gift is listed, nobody has
      confirmed it, and no other guest holds it in a cart. */
  predicate Toggleable(view: seq<GiftItem>, guest: string, id: int)
  {
    Target(view, id).Some? && !IsSelected(Target(view, id).value) && !HeldByOther(Target(view, id).value, guest)
  }

  /** `handleTogglePending`. */
  function TogglePending(view: seq<GiftItem>, guest: string, id: int, now: Stamp, storeOk: bool): (o: Outcome)
    requires Text.ValidName(guest)
    ensures o.call.None? ==> o.view == view
    ensures o.call.Some? <==> Toggleable(view, guest, id)
    ensures Target(view, id).None? ==> o == Outcome(view, None, None)
    ensures Target(view, id).Some? && IsSelected(Target(view, id).value) ==>
      var owner := Target(view, id).value.selectedBy.value;
      o.notice == (if owner == guest then None else Some(ChosenBy(owner)))
    ensures Target(view, id).Some? && !IsSelected(Target(view, id).value) && HeldByOther(Target(view, id).value, guest) ==>
      o.notice == Some(InCartOf(Target(view, id).value.pendingBy.value))
    ensures o.call.Some? ==>
      var holder := NewHolder(Target(view, id).value, guest);
      && o.call.value == UpdateCall(id, CartPatchFor(holder, now))
      && o.call.value.patch.isReserved == o.call.value.patch.reservedBy.Some?
      && (holder.None? <==> Target(view, id).value.pendingBy == Some(guest))
      && (storeOk ==> o.notice.None?)
      && (storeOk ==> |o.view| == |view| && forall i :: 0 <= i < |view| ==>
            o.view[i] == if view[i].id == id then view[i].(pendingBy := holder) else view[i])
      && (!storeOk ==> o.notice == Some(CartError))
      && (!storeOk ==> |o.view| == |view| && forall i :: 0 <= i < |view| ==>
            o.view[i] == if view[i].id == id then view[i].(pendingBy := Target(view, id).value.pendingBy) else view[i])
  {
    match Target(view, id)
    case None => Outcome(view, None, None)
    case Some(gift) =>
      if IsSelected(gift) then
        if gift.selectedBy == Some(guest) then Outcome(view, None, None)
        else Outcome(view, Some(ChosenBy(gift.selectedBy.value)), None)
      else if HeldByOther(gift, guest) then
        Outcome(view, Some(InCartOf(gift.pendingBy.value)), None)
      else
        var holder := NewHolder(gift, guest);
        var call := UpdateCall(id, CartPatchFor(holder, now));
        if storeOk then Outcome(UpdateWhere(view, id, SetPending(holder)), None, Some(call))
        else Outcome(UpdateWhere(view, id, SetPending(gift.pendingBy)), Some(CartError), Some(call))
  }

  /** `handleCancelConfirmed`. */
  function CancelConfirmed(view: seq<GiftItem>, guest: string, id: int, storeOk: bool): (o: Outcome)
    requires Text.ValidName(guest)
    ensures o.call.Some? <==> Target(view, id).Some? && Target(view, id).value.selectedBy == Some(guest)
    ensures o.call.None? ==> o == Outcome(view, None, None)
    ensures o.call.Some? ==> o.call.value == UpdateCall(id, ReleasePatch)
    ensures o.call.Some? && storeOk ==>
      && o.notice == Some(Released)
      && |o.view| == |view|
      && forall i :: 0 <= i < |view| ==> o.view[i] == if view[i].id == id then view[i].(selectedBy := None) else view[i]
    ensures o.call.Some? && !storeOk ==>
      && o.notice == Some(ReleaseError)
      && |o.view| == |view|
      && forall i :: 0 <= i < |view| ==> o.view[i] == if view[i].id == id then view[i].(selectedBy := Some(guest)) else view[i]
  {
    match Target(view, id)
    case None => Outcome(view, None, None)
    case Some(gift) =>
      if gift.selectedBy != Some(guest) then Outcome(view, None, None)
      else
        var call := UpdateCall(id, ReleasePatch);
        if storeOk then Outcome(UpdateWhere(view, id, SetSelected(None)), Some(Released), Some(call))
        else Outcome(UpdateWhere(view, id, SetSelected(Some(guest))), Some(ReleaseError), Some(call))
  }

  /** `handleToggleAlreadyOwned`; only the interface restricts it to the admin. */
  function ToggleAlreadyOwned(view: seq<GiftItem>, id: int, storeOk: bool): (o: Outcome)
    ensures Target(view, id).None? ==> o == Outcome(view, None, None)
    ensures Target(view, id).Some? ==>
      var owned := Target(view, id).value.alreadyOwned;
      && o.call == Some(UpdateCall(id, OwnedPatch(!owned)))
      && |o.view| == |view|
      && (storeOk ==> o.notice == Some(if owned then OwnedCleared else OwnedMarked))
      && (storeOk ==> forall i :: 0 <= i < |view| ==>
            o.view[i] == if view[i].id == id then view[i].(alreadyOwned := !owned) else view[i])
      && (!storeOk ==> o.notice == Some(OwnedError))
      && (!storeOk ==> forall i :: 0 <= i < |view| ==>
            o.view[i] == if view[i].id == id then view[i].(alreadyOwned := owned) else view[i])
  {
    match Target(view, id)
    case None => Outcome(view, None, None)
    case Some(gift) =>
      var call := UpdateCall(id, OwnedPatch(!gift.alreadyOwned));
      if storeOk then
        Outcome(UpdateWhere(view, id, SetOwned(!gift.alreadyOwned)),
                Some(if gift.alreadyOwned then OwnedCleared else OwnedMarked), Some(call))
      else
        Outcome(UpdateWhere(view, id, SetOwned(gift.alreadyOwned)), Some(OwnedError), Some(call))
  }

  /** A failed cart toggle leaves exactly the list the handler started from. */
  lemma ToggleRollbackRestores(view: seq<GiftItem>, guest: string, id: int, now: Stamp)
    requires Text.ValidName(guest) && UniqueIds(view)
    ensures TogglePending(view, guest, id, now, false).view == view
  {
    var o := TogglePending(view, guest, id, now, false);
    if o.call.Some? {
      var i := FindIndex(view, id).value;
      assert forall j :: 0 <= j < |view| ==> o.view[j] == view[j] by {
        forall j | 0 <= j < |view| ensures o.view[j] == view[j] {
          if view[j].id == id { assert j == i; }
        }
      }
    }
  }

  /** A successful toggle on a list with unique ids rewrites one entry: the
      cart holder of the gift the id names. */
  lemma ToggleRewritesOneEntry(view: seq<GiftItem>, guest: string, id: int, now: Stamp)
    requires Text.ValidName(guest) && UniqueIds(view)
    requires Toggleable(view, guest, id)
    ensures var i := FindIndex(view, id).value;
      TogglePending(view, guest, id, now, true).view == view[i := view[i].(pendingBy := NewHolder(view[i], guest))]
  {
    var i := FindIndex(view, id).value;
    var o := TogglePending(view, guest, id, now, true);
    assert forall j :: 0 <= j < |view| && view[j].id == id ==> j == i;
    assert forall j :: 0 <= j < |view| ==> o.view[j] == view[i := view[i].(pendingBy := NewHolder(view[i], guest))][j];
  }

  /** Toggling the same gift twice, both times successfully, gives back the
      original list: adding to the cart and removing from it are inverse. */
  lemma ToggleTwiceRestores(view: seq<GiftItem>, guest: string, id: int, now: Stamp)
    requires Text.ValidName(guest) && UniqueIds(view)
    requires Toggleable(view, guest, id)
    requires Target(view, id).value.pendingBy.None? || Target(view, id).value.pendingBy == Some(guest)
    ensures var once := TogglePending(view, guest, id, now, true);
      var twice := TogglePending(once.view, guest, id, now, true);
      twice.call.Some? && twice.view == view
  {
    var i := FindIndex(view, id).value;
    var g := view[i];
    var once := TogglePending(view, guest, id, now, true);
    ToggleRewritesOneEntry(view, guest, id, now);
    var g1 := g.(pendingBy := NewHolder(g, guest));
    assert once.view == view[i := g1];
    assert forall j :: 0 <= j < |view| ==> once.view[j].id == view[j].id;
    assert UniqueIds(once.view);
    assert FindIndex(once.view, id) == Some(i);
    assert Target(once.view, id) == Some(g1);
    ToggleRewritesOneEntry(once.view, guest, id, now);
    assert g1.(pendingBy := NewHolder(g1, guest)) == g;
    assert once.view[i := g] == view;
  }

  /** A toggle never produces a gift that is both confirmed and cart-held. */
  lemma TogglePreservesExclusive(view: seq<GiftItem>, guest: string, id: int, now: Stamp, storeOk: bool)
    requires Text.ValidName(guest) && UniqueIds(view) && AllExclusive(view)
    ensures AllExclusive(TogglePending(view, guest, id, now, storeOk).view)
  {
    var o := TogglePending(view, guest, id, now, storeOk);
    if o.call.Some? {
      var i := FindIndex(view, id).value;
      assert forall j :: 0 <= j < |view| && view[j].id == id ==> j == i;
    }
  }

  /** The optimistic value equals what the change feed later delivers: the
      stored row after the cart write converts to the optimistically updated gift. */
  lemma ToggleAgreesWithFeed(view: seq<GiftItem>, guest: string, id: int, now: Stamp, t: Table)
    requires Text.ValidName(guest)
    requires Toggleable(view, guest, id)
    requires id in t && Attributed(t[id]) && ConvertGiftRow(t[id]) == Target(view, id).value
    ensures var g := Target(view, id).value;
      var patch := TogglePending(view, guest, id, now, true).call.value.patch;
      var r := UpdateGift(t, id, patch, true);
      r.Success? && ConvertGiftRow(r.value[id]) == g.(pendingBy := NewHolder(g, guest))
  {
  }

  /** The cart write is not guarded by the stored confirmation. A client whose
      list is stale still shows a gift as free after another guest confirmed
      it; its toggle then writes itself into the confirmed row, which stays
      confirmed and now converts to a confirmation by the toggling guest. */
  lemma StaleCartAddTakesConfirmedRow(view: seq<GiftItem>, guest: string, id: int, now: Stamp, t: Table, other: string)
    requires Text.ValidName(guest) && Toggleable(view, guest, id)
    requires Target(view, id).value.pendingBy != Some(guest)
    requires id in t && IsTrue(t[id].isConfirmed) && t[id].reservedBy == Some(other) && other != guest
    ensures var patch := TogglePending(view, guest, id, now, true).call.value.patch;
      var r := UpdateGift(t, id, patch, true);
      && r.Success?
      && IsTrue(r.value[id].isConfirmed) && r.value[id].reservedBy == Some(guest)
      && ConvertGiftRow(r.value[id]).selectedBy == Some(guest)
  {
  }

  /** The stale removal: a guest whose list still shows the gift in their own
      cart takes it out after another guest confirmed it. The row stays
      confirmed but names nobody, so the other guest loses the gift and every
      client shows it neither confirmed nor held. */
  lemma StaleCartRemoveOrphansConfirmedRow(view: seq<GiftItem>, guest: string, id: int, now: Stamp, t: Table, other: string)
    requires Text.ValidName(guest) && Toggleable(view, guest, id)
    requires Target(view, id).value.pendingBy == Some(guest)
    requires id in t && IsTrue(t[id].isConfirmed) && t[id].reservedBy == Some(other) && other != guest
    ensures var patch := TogglePending(view, guest, id, now, true).call.value.patch;
      var r := UpdateGift(t, id, patch, true);
      && r.Success?
      && IsTrue(r.value[id].isConfirmed) && r.value[id].reservedBy.None?
      && !Attributed(r.value[id])
      && ConvertGiftRow(r.value[id]).selectedBy.None? && ConvertGiftRow(r.value[id]).pendingBy.None?
  {
  }

  /** A failed cancellation leaves exactly the list the handler started from. */
  lemma CancelRollbackRestores(view: seq<GiftItem>, guest: string, id: int)
    requires Text.ValidName(guest) && UniqueIds(view)
    ensures CancelConfirmed(view, guest, id, false).view == view
  {
    var o := CancelConfirmed(view, guest, id, false);
    if o.call.Some? {
      var i := FindIndex(view, id).value;
      assert forall j :: 0 <= j < |view| && view[j].id == id ==> j == i;
      assert forall j :: 0 <= j < |view| ==> o.view[j] == view[j];
    }
  }

  /** Cancelling releases the stored row completely, and the released row
      converts to the optimistically updated gift: unconfirmed and in no cart. */
  lemma CancelAgreesWithFeed(view: seq<GiftItem>, guest: string, id: int, t: Table)
    requires Text.ValidName(guest)
    requires CancelConfirmed(view, guest, id, true).call.Some?
    requires id in t && ConvertGiftRow(t[id]) == Target(view, id).value
    ensures var g := Target(view, id).value;
      var r := UpdateGift(t, id, ReleasePatch, true);
      && r.Success?
      && r.value[id].isReserved == Some(false) && r.value[id].isConfirmed == Some(false)
      && r.value[id].reservedBy.None? && r.value[id].reservedAt.None? && r.value[id].confirmedAt.None?
      && ConvertGiftRow(r.value[id]) == g.(selectedBy := None)
      && ConvertGiftRow(r.value[id]).pendingBy.None?
  {
  }

  /** A failed already-owned toggle leaves exactly the list it started from. */
  lemma OwnedRollbackRestores(view: seq<GiftItem>, id: int)
    requires UniqueIds(view)
    ensures ToggleAlreadyOwned(view, id, false).view == view
  {
    var o := ToggleAlreadyOwned(view, id, false);
    if Target(view, id).Some? {
      var i := FindIndex(view, id).value;
      assert forall j :: 0 <= j < |view| && view[j].id == id ==> j == i;
      assert forall j :: 0 <= j < |view| ==> o.view[j] == view[j];
    }
  }

  /** The stored owned flag after the write converts to the optimistic value. */
  lemma OwnedAgreesWithFeed(view: seq<GiftItem>, id: int, t: Table)
    requires Target(view, id).Some?
    requires id in t && ConvertGiftRow(t[id]) == Target(view, id).value
    ensures var g := Target(view, id).value;
      var r := UpdateGift(t, id, OwnedPatch(!g.alreadyOwned), true);
      r.Success? && ConvertGiftRow(r.value[id]) == g.(alreadyOwned := !g.alreadyOwned)
  {
  }

  /** Selection predicates shared by the preview, the batch and the counters. */
  function PendingBy(guest: string): GiftItem -> bool
  {
    (g: GiftItem) => g.pendingBy == Some(guest)
  }

  function SelectedBy(guest: string): GiftItem -> bool
  {
    (g: GiftItem) => g.selectedBy == Some(guest)
  }

  function SelectedByOther(guest: string): GiftItem -> bool
  {
    (g: GiftItem) => IsSelected(g) && g.selectedBy != Some(guest)
  }

  /** What the confirmation dialog shows before anything is sent. */
  datatype Preview = Preview(pendingGifts: seq<GiftItem>, conflicts: seq<GiftItem>)

  /** `handleConfirmGifts`: my cart, and those of its gifts the local list
      already shows as confirmed by somebody else. */
  function ConfirmPreview(view: seq<GiftItem>, guest: string): (p: Preview)
    ensures forall g :: g in p.pendingGifts <==> g in view && g.pendingBy == Some(guest)
    ensures forall g :: g in p.conflicts <==> g in p.pendingGifts && IsSelected(g) && g.selectedBy != Some(guest)
    ensures Seqs.IsSubsequence(p.pendingGifts, view)
    ensures Seqs.IsSubsequence(p.conflicts, p.pendingGifts)
    ensures forall g :: multiset(p.pendingGifts)[g] == if g.pendingBy == Some(guest) then multiset(view)[g] else 0
    ensures forall g ::
              multiset(p.conflicts)[g] == if IsSelected(g) && g.selectedBy != Some(guest) then multiset(p.pendingGifts)[g] else 0
  {
    var pending := Seqs.Filter(view, PendingBy(guest));
    var conflicts := Seqs.Filter(pending, SelectedByOther(guest));
    Seqs.FilterIsSubsequence(view, PendingBy(guest));
    Seqs.FilterIsSubsequence(pending, SelectedByOther(guest));
    Seqs.FilterMultiset(view, PendingBy(guest));
    Seqs.FilterMultiset(pending, SelectedByOther(guest));
    Preview(pending, conflicts)
  }

  /** On a list where no gift is both confirmed and cart-held, which is every
      list of converted rows, the local conflict check can never fire. */
  lemma PreviewConflictsEmpty(view: seq<GiftItem>, guest: string)
    requires Text.ValidName(guest) && AllExclusive(view)
    ensures ConfirmPreview(view, guest).conflicts == []
  {
  }

  function Ids(s: seq<GiftItem>): (r: seq<int>)
    ensures |r| == |s|
    ensures forall i :: 0 <= i < |s| ==> r[i] == s[i].id
  {
    seq(|s|, i requires 0 <= i < |s| => s[i].id)
  }

  /** The ids `handleFinalizeConfirmation` sends: those of the gifts in my cart. */
  function PendingIds(view: seq<GiftItem>, guest: string): (ids: seq<int>)
    ensures forall k :: k in ids <==> exists i :: 0 <= i < |view| && view[i].pendingBy == Some(guest) && view[i].id == k
    ensures |ids| == 0 <==> forall i :: 0 <= i < |view| ==> view[i].pendingBy != Some(guest)
  {
    var pending := Seqs.Filter(view, PendingBy(guest));
    var ids := Ids(pending);
    assert forall k :: k in ids ==> exists j :: 0 <= j < |pending| && pending[j].id == k;
    assert forall i :: 0 <= i < |view| && view[i].pendingBy == Some(guest) ==> view[i] in pending;
    assert |pending| > 0 ==> pending[0] in view;
    ids
  }

  /** The result of the confirm round trip: the notice, the call made, and the table after it. */
  datatype Finalized = Finalized(notice: Option<Notice>, call: Option<Call>, table: Table)

  /** `handleFinalizeConfirmation` together with the `confirmGifts` it awaits,
      with the read taken from `read` and the write applied to `current`. */
  function FinalizeConfirmation(view: seq<GiftItem>, guest: string, read: Table, current: Table, now: Stamp,
                                readOk: bool, writeOk: bool): (f: Finalized)
    requires Text.ValidName(guest)
    ensures f.call.None? <==> forall i :: 0 <= i < |view| ==> view[i].pendingBy != Some(guest)
    ensures f.call.None? ==> f == Finalized(None, None, current)
    ensures f.call.Some? ==> f.call.value == ConfirmCall(guest, PendingIds(view, guest))
    ensures f.table.Keys == current.Keys
    ensures f.notice == Some(SomeAlreadyChosen) ==>
      f.table == current && |Conflicts(read, guest, PendingIds(view, guest))| > 0
    ensures f.notice == Some(ConfirmError) ==> f.table == current
    ensures f.notice == Some(GiftsConfirmed) ==>
      forall k :: k in current && k in PendingIds(view, guest) && current[k].isConfirmed == Some(false) ==>
        f.table[k] == ConfirmRow(current[k], guest, now)
    ensures forall k :: k in current && IsTrue(current[k].isConfirmed) ==> f.table[k] == current[k]
    ensures forall k :: k in current && (k !in PendingIds(view, guest) || current[k].isConfirmed != Some(false)) ==>
      f.table[k] == current[k]
    ensures f.call.Some? && readOk && |Conflicts(read, guest, PendingIds(view, guest))| > 0 ==>
      f.notice == Some(SomeAlreadyChosen)
    ensures f.call.Some? && readOk && writeOk && |Conflicts(read, guest, PendingIds(view, guest))| == 0 ==>
      f.notice == Some(GiftsConfirmed)
    ensures f.call.Some? && (!readOk || (!writeOk && |Conflicts(read, guest, PendingIds(view, guest))| == 0)) ==>
      f.notice == Some(ConfirmError)
  {
    var ids := PendingIds(view, guest);
    if |ids| == 0 then Finalized(None, None, current)
    else
      var out := ConfirmGifts(read, current, guest, ids, now, readOk, writeOk);
      var notice :=
        match out.0
        case Failure(_) => ConfirmError
        case Success(res) => if !res.success && |res.conflicts| > 0 then SomeAlreadyChosen else GiftsConfirmed;
      Finalized(Some(notice), Some(ConfirmCall(guest, ids)), out.1)
  }

  /** When every stored row of my cart has a null `is_confirmed`, none of them
      is confirmed, yet the round trip reports success: the guarded write skips
      null rows and a write that matched nothing is not an error. */
  lemma SuccessReportedForNullRow(view: seq<GiftItem>, guest: string, t: Table, now: Stamp)
    requires Text.ValidName(guest)
    requires exists i :: 0 <= i < |view| && view[i].pendingBy == Some(guest)
    requires forall k :: k in t && k in PendingIds(view, guest) ==> t[k].isConfirmed.None?
    ensures var f := FinalizeConfirmation(view, guest, t, t, now, true, true);
      && f.notice == Some(GiftsConfirmed) && f.table == t
      && forall k :: k in t && k in PendingIds(view, guest) ==> !IsTrue(f.table[k].isConfirmed)
  {
    var ids := PendingIds(view, guest);
    var c := Conflicts(t, guest, ids);
    assert forall j :: j !in c;
    assert c.Keys == {};
  }

  /** Finalising right after a successful cart toggle includes that gift in the
      batch, and when no other gift of my cart is stored as confirmed by someone
      else, the stored row becomes mine. */
  lemma ToggledGiftGetsConfirmed(view: seq<GiftItem>, guest: string, id: int, now: Stamp, t: Table)
    requires Text.ValidName(guest) && UniqueIds(view)
    requires Target(view, id).Some? && Target(view, id).value.pendingBy.None?
    requires Toggleable(view, guest, id)
    requires id in t && t[id].isConfirmed == Some(false)
    requires forall i :: 0 <= i < |view| && view[i].pendingBy == Some(guest) && view[i].id in t ==>
      !IsConflict(t[view[i].id], guest)
    ensures var v := TogglePending(view, guest, id, now, true).view;
      var f := FinalizeConfirmation(v, guest, t, t, now, true, true);
      && id in PendingIds(v, guest)
      && f.notice == Some(GiftsConfirmed)
      && f.table[id].reservedBy == Some(guest) && IsTrue(f.table[id].isConfirmed)
      && ConvertGiftRow(f.table[id]).selectedBy == Some(guest)
  {
    var v := TogglePending(view, guest, id, now, true).view;
    var i := FindIndex(view, id).value;
    assert v[i].pendingBy == Some(guest) && v[i].id == id;
    var ids := PendingIds(v, guest);
    var c := Conflicts(t, guest, ids);
    assert forall j :: j !in c;
    assert c.Keys == {};
  }

  /** The comparison key of every listed name, in list order. */
  function NameKeys(view: seq<GiftItem>): (ks: seq<string>)
    ensures |ks| == |view|
    ensures forall i :: 0 <= i < |view| ==> ks[i] == Text.Normalize(view[i].name)
  {
    seq(|view|, i requires 0 <= i < |view| => Text.Normalize(view[i].name))
  }

  /** `handleAddGift`: a name equal to an existing one after lowercasing and
      trimming is refused before any store call; otherwise the insert is sent
      and the list is left for the change feed to extend. */
  function AddGiftRequest(view: seq<GiftItem>, name: string, category: Option<string>, storeOk: bool): (o: Outcome)
    requires Text.ValidName(name)
    ensures o.view == view
    ensures o.call.None? <==> exists i :: 0 <= i < |view| && Text.Normalize(view[i].name) == Text.Normalize(name)
    ensures o.call.None? ==> o.notice == Some(DuplicateName(name))
    ensures o.call.Some? ==> o.call.value == InsertCall(name, category)
    ensures o.call.Some? ==> o.notice == Some(if storeOk then GiftAdded else AddError)
  {
    if Text.Normalize(name) in NameKeys(view) then Outcome(view, Some(DuplicateName(name)), None)
    else Outcome(view, Some(if storeOk then GiftAdded else AddError), Some(InsertCall(name, category)))
  }

  /** The duplicate check ignores the white space around stored names: a name
      listed anywhere with padding refuses the bare name. */
  lemma AddRejectsPaddedDuplicate(view: seq<GiftItem>, name: string, stored: GiftItem, pre: string, post: string,
                                  category: Option<string>, storeOk: bool)
    requires Text.ValidName(name)
    requires Text.AllSpace(pre) && Text.AllSpace(post)
    requires stored in view && stored.name == pre + name + post
    ensures AddGiftRequest(view, name, category, storeOk).call.None?
  {
    Text.NormalizeIgnoresPadding(pre, name, post);
    var i :| 0 <= i < |view| && view[i] == stored;
    assert Text.Normalize(view[i].name) == Text.Normalize(name);
  }

  /** The three list filters of the application. */
  datatype ListFilter = All | AvailableOnly | Mine

  function Shown(f: ListFilter, guest: string): GiftItem -> bool
  {
    match f
    case All => (g: GiftItem) => true
    case AvailableOnly => (g: GiftItem) => !IsSelected(g) && !Truthy(g.pendingBy) && !g.alreadyOwned
    case Mine => (g: GiftItem) => g.selectedBy == Some(guest) || g.pendingBy == Some(guest)
  }

  /** `filteredGifts`: an order-preserving selection of the list. */
  function FilteredGifts(view: seq<GiftItem>, f: ListFilter, guest: string): (r: seq<GiftItem>)
    ensures Seqs.IsSubsequence(r, view)
    ensures f == All ==> r == view
    ensures f == AvailableOnly ==> forall g :: g in r <==> g in view && !IsSelected(g) && !Truthy(g.pendingBy) && !g.alreadyOwned
    ensures f == Mine ==> forall g :: g in r <==> g in view && (g.selectedBy == Some(guest) || g.pendingBy == Some(guest))
    ensures f == AvailableOnly ==> forall g ::
                                     multiset(r)[g] == if !IsSelected(g) && !Truthy(g.pendingBy) && !g.alreadyOwned then multiset(view)[g] else 0
    ensures f == Mine ==> forall g ::
                            multiset(r)[g] == if g.selectedBy == Some(guest) || g.pendingBy == Some(guest) then multiset(view)[g] else 0
  {
    Seqs.FilterIsSubsequence(view, Shown(f, guest));
    Seqs.FilterMultiset(view, Shown(f, guest));
    if f == All then Seqs.FilterAllKept(view, Shown(f, guest)); Seqs.Filter(view, Shown(f, guest))
    else Seqs.Filter(view, Shown(f, guest))
  }

  datatype Stats = Stats(total: nat, selected: nat, myConfirmed: nat, myPending: nat)

  /** `stats`: the counters shown above the list. */
  function StatsOf(view: seq<GiftItem>, guest: string): (s: Stats)
    requires Text.ValidName(guest)
    ensures s.total == |view|
    ensures s.myConfirmed <= s.selected <= s.total
    ensures s.myPending > 0 <==> exists i :: 0 <= i < |view| && view[i].pendingBy == Some(guest)
  {
    Seqs.FilterMonotone(view, SelectedBy(guest), IsSelected);
    var pending := Seqs.Filter(view, PendingBy(guest));
    assert forall i :: 0 <= i < |view| && view[i].pendingBy == Some(guest) ==> view[i] in pending;
    assert |pending| > 0 ==> pending[0] in view;
    Stats(|view|, |Seqs.Filter(view, IsSelected)|, |Seqs.Filter(view, SelectedBy(guest))|, |pending|)
  }

  /** The "mine" list is exactly my confirmed gifts plus my cart: on a list
      where no gift is both confirmed and cart-held, its length is the sum of
      the two counters shown above the list. */
  lemma MineCountMatchesStats(view: seq<GiftItem>, guest: string)
    requires Text.ValidName(guest) && AllExclusive(view)
    ensures |FilteredGifts(view, Mine, guest)| == StatsOf(view, guest).myConfirmed + StatsOf(view, guest).myPending
  {
    assert forall g :: g in view ==> Exclusive(g);
    Seqs.FilterDisjointUnion(view, SelectedBy(guest), PendingBy(guest), Shown(Mine, guest));
  }
}

=== FILE: seqs.dfy ===
/** Order-preserving selection over sequences: the model of `Array.prototype.filter`. */
module Seqs {

  /** The elements of `s` that satisfy `p`, in their original order. */
  function Filter<T(==,!new)>(s: seq<T>, p: T -> bool): (r: seq<T>)
    ensures |r| <= |s|
    ensures forall i :: 0 <= i < |r| ==> p(r[i])
    ensures forall x :: x in r <==> x in s && p(x)
  {
    if |s| == 0 then []
    else (if p(s[0]) then [s[0]] else []) + Filter(s[1..], p)
  }

  /** `a` can be obtained from `b` by deleting elements. */
  predicate IsSubsequence<T(==)>(a: seq<T>, b: seq<T>)
    decreases |b|
  {
    || |a| == 0
    || (&& 0 < |b|
        && ((a[0] == b[0] && IsSubsequence(a[1..], b[1..])) || IsSubsequence(a, b[1..])))
  }

  /** Filtering keeps the survivors in input order. */
  lemma {:induction false} FilterIsSubsequence<T(!new)>(s: seq<T>, p: T -> bool)
    ensures IsSubsequence(Filter(s, p), s)
  {
    if |s| > 0 {
      FilterIsSubsequence(s[1..], p);
      if p(s[0]) {
        assert Filter(s, p) == [s[0]] + Filter(s[1..], p);
        assert Filter(s, p)[1..] == Filter(s[1..], p);
      } else {
        assert Filter(s, p) == Filter(s[1..], p);
      }
    }
  }

  /** A weaker predicate never selects fewer elements. */
  lemma {:induction false} FilterMonotone<T(!new)>(s: seq<T>, p: T -> bool, q: T -> bool)
    requires forall x :: x in s && p(x) ==> q(x)
    ensures |Filter(s, p)| <= |Filter(s, q)|
  {
    if |s| > 0 {
      assert forall x :: x in s[1..] ==> x in s;
      FilterMonotone(s[1..], p, q);
    }
  }

  /** A predicate and its negation split a sequence into two parts of complementary size. */
  lemma {:induction false} FilterComplement<T(!new)>(s: seq<T>, p: T -> bool, q: T -> bool)
    requires forall x :: x in s ==> q(x) == !p(x)
    ensures |Filter(s, p)| + |Filter(s, q)| == |s|
  {
    if |s| > 0 {
      assert forall x :: x in s[1..] ==> x in s;
      FilterComplement(s[1..], p, q);
    }
  }

  /** Filtering changes nothing exactly when every element already satisfies the predicate. */
  lemma {:induction false} FilterAllKept<T(!new)>(s: seq<T>, p: T -> bool)
    requires forall i :: 0 <= i < |s| ==> p(s[i])
    ensures Filter(s, p) == s
  {
    if |s| > 0 {
      FilterAllKept(s[1..], p);
      assert [s[0]] + s[1..] == s;
    }
  }

  /** Filtering keeps every copy of a selected element and no copy of the others. */
  lemma {:induction false} FilterMultiset<T(!new)>(s: seq<T>, p: T -> bool)
    ensures forall x :: multiset(Filter(s, p))[x] == if p(x) then multiset(s)[x] else 0
  {
    if |s| > 0 {
      FilterMultiset(s[1..], p);
      assert s == [s[0]] + s[1..];
      assert multiset(s) == multiset([s[0]]) + multiset(s[1..]);
      var head := if p(s[0]) then [s[0]] else [];
      assert Filter(s, p) == head + Filter(s[1..], p);
      assert multiset(Filter(s, p)) == multiset(head) + multiset(Filter(s[1..], p));
    }
  }

  /** Selecting by either of two predicates that never hold together selects as
      many elements as the two selections put together. */
  lemma {:induction false} FilterDisjointUnion<T(!new)>(s: seq<T>, p: T -> bool, q: T -> bool, either: T -> bool)
    requires forall x :: x in s ==> !(p(x) && q(x))
    requires forall x :: x in s ==> either(x) == (p(x) || q(x))
    ensures |Filter(s, either)| == |Filter(s, p)| + |Filter(s, q)|
  {
    if |s| > 0 {
      assert forall x :: x in s[1..] ==> x in s;
      FilterDisjointUnion(s[1..], p, q, either);
    }
  }
}

=== FILE: store.dfy ===
/** The hosted `gifts` table as the application uses it: a map from id to row,
    the single-row partial update, the insert of a new gift, and the
    two-phase batch confirmation with its conditional multi-row write. */
module Store {
  import opened Wrappers
  import opened Js

  /** Opaque ISO timestamp supplied by the caller's clock. */
  type Stamp = string

  /** The columns of a gift row that the reservation logic reads or writes.
      Nullable columns are options; booleans may be null. */
  datatype Row = Row(
    id: int,
    name: string,
    category: Option<string>,
    priority: Option<string>,
    isReserved: Option<bool>,
    reservedBy: Option<string>,
    reservedAt: Option<Stamp>,
    isConfirmed: Option<bool>,
    confirmedAt: Option<Stamp>,
    alreadyOwned: Option<bool>)

  type Table = map<int, Row>

  /** A confirmed row names its owner. The batch confirmation, the release and
      the owned mark keep this (`Store.WritesKeepAttribution`); a cart removal
      sent from a stale list breaks it (`Handlers.StaleCartRemoveOrphansConfirmedRow`). */
  predicate Attributed(r: Row)
  {
    IsTrue(r.isConfirmed) ==> Truthy(r.reservedBy)
  }

  datatype StoreError = NetworkError | NotFound | ReadError | WriteError

  /** The partial updates the handlers send through `updateGift`. */
  datatype Patch =
    | CartPatch(isReserved: bool, reservedBy: Option<string>, reservedAt: Option<Stamp>)
    | ReleasePatch
    | OwnedPatch(alreadyOwned: bool)

  /** The row after a partial update: the patched columns take the new values,
      every other column keeps its old one. A cart write leaves the
      confirmation and owned columns alone, the owned mark leaves every
      reservation column alone, and a release clears the whole reservation
      but keeps the owned mark. */
  function ApplyPatch(r: Row, p: Patch): (r': Row)
    ensures r'.id == r.id && r'.name == r.name && r'.category == r.category && r'.priority == r.priority
    ensures p.CartPatch? ==>
      && r'.isReserved == Some(p.isReserved) && r'.reservedBy == p.reservedBy && r'.reservedAt == p.reservedAt
      && r'.isConfirmed == r.isConfirmed && r'.confirmedAt == r.confirmedAt && r'.alreadyOwned == r.alreadyOwned
    ensures p.ReleasePatch? ==>
      && r'.isReserved == Some(false) && r'.isConfirmed == Some(false)
      && r'.reservedBy.None? && r'.reservedAt.None? && r'.confirmedAt.None?
      && r'.alreadyOwned == r.alreadyOwned
    ensures p.OwnedPatch? ==>
      && r'.alreadyOwned == Some(p.alreadyOwned)
      && r'.isReserved == r.isReserved && r'.reservedBy == r.reservedBy && r'.reservedAt == r.reservedAt
      && r'.isConfirmed == r.isConfirmed && r'.confirmedAt == r.confirmedAt
  {
    match p
    case CartPatch(held, holder, heldAt) => r.(isReserved := Some(held), reservedBy := holder, reservedAt := heldAt)
    case ReleasePatch =>
      r.(isReserved := Some(false), reservedBy := None, reservedAt := None,
         isConfirmed := Some(false), confirmedAt := None)
    case OwnedPatch(owned) => r.(alreadyOwned := Some(owned))
  }

  /** A host's owned mark and a guest's cart or release write on the same row
      touch disjoint columns, so either order of arrival stores the same row:
      neither write loses the other's columns. */
  lemma OwnedCommutesWithReservation(r: Row, owned: bool, p: Patch)
    requires !p.OwnedPatch?
    ensures ApplyPatch(ApplyPatch(r, OwnedPatch(owned)), p) == ApplyPatch(ApplyPatch(r, p), OwnedPatch(owned))
  {
  }

  /** Resending a patch changes nothing: a retried update is harmless. */
  lemma PatchIdempotent(r: Row, p: Patch)
    ensures ApplyPatch(ApplyPatch(r, p), p) == ApplyPatch(r, p)
  {
  }

  /** Of two cart writes the later one decides the whole reservation. */
  lemma LaterCartWriteWins(r: Row, first: Patch, second: Patch)
    requires first.CartPatch? && second.CartPatch?
    ensures ApplyPatch(ApplyPatch(r, first), second) == ApplyPatch(r, second)
  {
  }

  /** `updateGift(id, patch)`: `.eq('id', id).select().single()` fails when the
      id matches no row, and any call may fail in transit (`reachable` false). */
  function UpdateGift(t: Table, id: int, p: Patch, reachable: bool): (r: Result<Table, StoreError>)
    ensures r.Success? <==> reachable && id in t
    ensures r.Success? ==> r.value.Keys == t.Keys && r.value[id] == ApplyPatch(t[id], p)
    ensures r.Success? ==> forall k :: k in t && k != id ==> r.value[k] == t[k]
  {
    if !reachable then Failure(NetworkError)
    else if id !in t then Failure(NotFound)
    else Success(t[id := ApplyPatch(t[id], p)])
  }

  /** The row `addGift` inserts; the store assigns the id. */
  function NewRow(id: int, name: string, category: Option<string>): Row
  {
    Row(id, name, OrNull(category), Some("desirable"), Some(false), None, None, Some(false), None, None)
  }

  /** `addGift(name, category)`: one new row, neither reserved nor confirmed,
      with an empty category stored as null. */
  function AddGift(t: Table, id: int, name: string, category: Option<string>, reachable: bool): (r: Result<Table, StoreError>)
    requires id !in t
    ensures r.Success? <==> reachable
    ensures r.Success? ==> r.value.Keys == t.Keys + {id}
    ensures r.Success? ==> forall k :: k in t ==> r.value[k] == t[k]
    ensures r.Success? ==>
      var row := r.value[id];
      && row.id == id && row.name == name
      && row.isReserved == Some(false) && row.isConfirmed == Some(false)
      && row.priority == Some("desirable")
      && row.reservedBy.None? && row.reservedAt.None? && row.confirmedAt.None? && row.alreadyOwned.None?
      && (row.category.Some? <==> Truthy(category))
      && (row.category.Some? ==> row.category == category)
  {
    if reachable then Success(t[id := NewRow(id, name, category)]) else Failure(NetworkError)
  }

  /** A fetched row blocks the batch when someone else, named by a non-empty
      `reserved_by`, has already confirmed it. Cart holds never block. */
  predicate IsConflict(r: Row, guest: string)
  {
    IsTrue(r.isConfirmed) && Truthy(r.reservedBy) && r.reservedBy != Some(guest)
  }

  /** The rows of `ids` present in the read snapshot that are conflicts. */
  function Conflicts(t: Table, guest: string, ids: seq<int>): (c: map<int, Row>)
    ensures forall k :: k in c <==> k in ids && k in t && IsConflict(t[k], guest)
    ensures forall k :: k in c ==> c[k] == t[k]
  {
    map k | k in t && k in ids && IsConflict(t[k], guest) :: t[k]
  }

  /** The values the confirmation write assigns. */
  function ConfirmRow(r: Row, guest: string, now: Stamp): Row
  {
    r.(isReserved := Some(true), reservedBy := Some(guest), reservedAt := Some(now),
       isConfirmed := Some(true), confirmedAt := Some(now))
  }

  /** The write `.update(...).in('id', ids).is('is_confirmed', false)`: only rows
      of the batch whose `is_confirmed` is false at write time are touched;
      `.is(col, false)` does not match null. */
  predicate WriteMatches(t: Table, ids: seq<int>, k: int)
    requires k in t
  {
    k in ids && t[k].isConfirmed == Some(false)
  }

  function ConditionalConfirm(t: Table, guest: string, ids: seq<int>, now: Stamp): (t': Table)
    ensures t'.Keys == t.Keys
    ensures forall k :: k in t && WriteMatches(t, ids, k) ==> t'[k] == ConfirmRow(t[k], guest, now)
    ensures forall k :: k in t && !WriteMatches(t, ids, k) ==> t'[k] == t[k]
  {
    map k | k in t :: if WriteMatches(t, ids, k) then ConfirmRow(t[k], guest, now) else t[k]
  }

  /** The batch confirmation by a named guest, a release and an owned mark
      never leave a confirmed row without its owner. */
  lemma WritesKeepAttribution(t: Table, guest: string, ids: seq<int>, now: Stamp, id: int, owned: bool)
    requires guest != "" && forall k :: k in t ==> Attributed(t[k])
    ensures forall k :: k in t ==> Attributed(ConditionalConfirm(t, guest, ids, now)[k])
    ensures id in t ==> Attributed(ApplyPatch(t[id], ReleasePatch))
    ensures id in t ==> Attributed(ApplyPatch(t[id], OwnedPatch(owned)))
  {
  }

  datatype ConfirmResult = ConfirmResult(success: bool, conflicts: map<int, Row>)

  /** `confirmGifts(guest, ids)` when the read sees table `read` and the write,
      possibly later, is applied to table `current`. Returns the reply and the
      table after the call. */
  function ConfirmGifts(read: Table, current: Table, guest: string, ids: seq<int>, now: Stamp,
                        readOk: bool, writeOk: bool): (out: (Result<ConfirmResult, StoreError>, Table))
    ensures out.1.Keys == current.Keys
    ensures !readOk ==> out == (Failure(ReadError), current)
    ensures readOk && |Conflicts(read, guest, ids)| > 0 ==>
      out == (Success(ConfirmResult(false, Conflicts(read, guest, ids))), current)
    ensures readOk && |Conflicts(read, guest, ids)| == 0 && !writeOk ==> out == (Failure(WriteError), current)
    ensures readOk && writeOk && |Conflicts(read, guest, ids)| == 0 ==>
      out == (Success(ConfirmResult(true, map[])), ConditionalConfirm(current, guest, ids, now))
    ensures out.0.Success? ==> (out.0.value.success <==> |out.0.value.conflicts| == 0)
    ensures out.0.Success? && out.0.value.success ==>
      forall k :: k in current && k in ids && current[k].isConfirmed == Some(false) ==>
        out.1[k] == ConfirmRow(current[k], guest, now)
    ensures forall k :: k in current && k !in ids ==> out.1[k] == current[k]
    ensures forall k :: k in current && current[k].isConfirmed != Some(false) ==> out.1[k] == current[k]
  {
    if !readOk then (Failure(ReadError), current)
    else
      var conflicts := Conflicts(read, guest, ids);
      if |conflicts| > 0 then (Success(ConfirmResult(false, conflicts)), current)
      else if !writeOk then (Failure(WriteError), current)
      else (Success(ConfirmResult(true, map[])), ConditionalConfirm(current, guest, ids, now))
  }

  /** A batch fetched with no foreign confirmation goes through, and a row another
      guest only holds in a cart, still unconfirmed at write time, becomes the
      requester's: cart holds do not block confirmation. */
  lemma CartHoldOfOtherIsTakenOver(read: Table, current: Table, guest: string, ids: seq<int>, now: Stamp, k: int)
    requires forall j :: j in read && j in ids ==> !IsTrue(read[j].isConfirmed)
    requires k in ids && k in current && current[k].isConfirmed == Some(false)
    requires Truthy(current[k].reservedBy) && current[k].reservedBy != Some(guest)
    ensures var out := ConfirmGifts(read, current, guest, ids, now, true, true);
      && out.0 == Success(ConfirmResult(true, map[]))
      && out.1[k].reservedBy == Some(guest) && out.1[k].isConfirmed == Some(true)
  {
    var c := Conflicts(read, guest, ids);
    assert forall j :: j !in c;
    assert c.Keys == {};
  }

  /** The reply is a success even when the guarded write matched no row. */
  lemma ZeroMatchStillSucceeds(read: Table, current: Table, guest: string, ids: seq<int>, now: Stamp)
    requires |Conflicts(read, guest, ids)| == 0
    requires forall k :: k in current && k in ids ==> current[k].isConfirmed != Some(false)
    ensures ConfirmGifts(read, current, guest, ids, now, true, true) == (Success(ConfirmResult(true, map[])), current)
  {
    var t' := ConditionalConfirm(current, guest, ids, now);
    assert forall k :: k in current ==> t'[k] == current[k];
    assert t' == current;
  }

  /** One confirmation attempt: its own (possibly stale) read snapshot, its
      batch, and whether each of its two store calls went through. */
  datatype Attempt = Attempt(read: Table, guest: string, ids: seq<int>, now: Stamp, readOk: bool, writeOk: bool)

  /** The table after a series of confirmation attempts, each writing to the
      table left by the previous one. */
  function RunAttempts(t: Table, attempts: seq<Attempt>): (t': Table)
    ensures t'.Keys == t.Keys
    decreases |attempts|
  {
    if |attempts| == 0 then t
    else
      var a := attempts[0];
      RunAttempts(ConfirmGifts(a.read, t, a.guest, a.ids, a.now, a.readOk, a.writeOk).1, attempts[1..])
  }

  /** Whatever the interleaving of reads and writes, a confirmed row is never
      rewritten by a later confirmation: its owner is final. */
  lemma {:induction false} ConfirmedOwnerIsFinal(t: Table, attempts: seq<Attempt>, k: int)
    requires k in t && IsTrue(t[k].isConfirmed)
    ensures RunAttempts(t, attempts)[k] == t[k]
    decreases |attempts|
  {
    if |attempts| > 0 {
      var a := attempts[0];
      var t1 := ConfirmGifts(a.read, t, a.guest, a.ids, a.now, a.readOk, a.writeOk).1;
      assert t1[k] == t[k];
      ConfirmedOwnerIsFinal(t1, attempts[1..], k);
    }
  }

  /** Two guests finalising overlapping batches: once the first write has
      confirmed a shared row, the second guest's write leaves it alone even
      when that guest's read was taken before the first write. */
  lemma {:induction false} FirstConfirmationWins(s0: Table, s1: Table, first: string, second: string,
                                                 ids1: seq<int>, ids2: seq<int>, now1: Stamp, now2: Stamp, k: int)
    requires k in s1 && k in ids1 && s1[k].isConfirmed == Some(false)
    requires ConfirmGifts(s0, s1, first, ids1, now1, true, true).0 == Success(ConfirmResult(true, map[]))
    ensures var s2 := ConfirmGifts(s0, s1, first, ids1, now1, true, true).1;
      && s2[k].reservedBy == Some(first)
      && RunAttempts(s2, [Attempt(s0, second, ids2, now2, true, true)])[k].reservedBy == Some(first)
  {
    var s2 := ConfirmGifts(s0, s1, first, ids1, now1, true, true).1;
    assert IsTrue(s2[k].isConfirmed);
    ConfirmedOwnerIsFinal(s2, [Attempt(s0, second, ids2, now2, true, true)], k);
  }
}

=== FILE: text.dfy ===
/** The string normalisation behind the duplicate-name check: `toLowerCase()`
    followed by `trim()`. Case mapping covers the ASCII letters only. */
module Text {

  /** ECMAScript WhiteSpace and LineTerminator code points, which `trim()` strips. */
  predicate IsSpace(c: char)
  {
    || c == ' ' || c == '\t' || c == '\n' || c == '\r'
    || c == '\U{000B}' || c == '\U{000C}' || c == '\U{00A0}' || c == '\U{1680}'
    || ('\U{2000}' <= c <= '\U{200A}')
    || c == '\U{2028}' || c == '\U{2029}' || c == '\U{202F}' || c == '\U{205F}'
    || c == '\U{3000}' || c == '\U{FEFF}'
  }

  /** `s` without its leading white space: a suffix of `s` that does not start with a space. */
  function TrimStart(s: string): (r: string)
    ensures |r| <= |s| && r == s[|s| - |r|..]
    ensures |r| > 0 ==> !IsSpace(r[0])
    ensures forall i :: 0 <= i < |s| - |r| ==> IsSpace(s[i])
  {
    if |s| > 0 && IsSpace(s[0]) then TrimStart(s[1..]) else s
  }

  /** `s` without its trailing white space: a prefix of `s` that does not end with a space. */
  function TrimEnd(s: string): (r: string)
    ensures |r| <= |s| && r == s[..|r|]
    ensures |r| > 0 ==> !IsSpace(r[|r| - 1])
    ensures forall i :: |r| <= i < |s| ==> IsSpace(s[i])
  {
    if |s| > 0 && IsSpace(s[|s| - 1]) then TrimEnd(s[..|s| - 1]) else s
  }

  /** `String.prototype.trim`. */
  function Trim(s: string): string
  {
    TrimEnd(TrimStart(s))
  }

  function LowerChar(c: char): char
  {
    if 'A' <= c <= 'Z' then (c as int + 32) as char else c
  }

  /** `String.prototype.toLowerCase`, restricted to ASCII letters. */
  function Lower(s: string): (r: string)
    ensures |r| == |s|
  {
    seq(|s|, i requires 0 <= i < |s| => LowerChar(s[i]))
  }

  /** The key two gift names are compared by: `name.toLowerCase().trim()`. */
  function Normalize(s: string): string
  {
    Trim(Lower(s))
  }

  /** What the entry forms accept: a name that is non-empty and already trimmed. */
  predicate ValidName(s: string)
  {
    s != "" && Trim(s) == s
  }

  /** Trimming twice is trimming once, so a trimmed name is a fixed point. */
  lemma {:induction false} TrimIdempotent(s: string)
    ensures Trim(Trim(s)) == Trim(s)
  {
    var t := Trim(s);
    assert TrimStart(t) == t;
    assert TrimEnd(t) == t;
  }

  predicate AllSpace(s: string)
  {
    forall i :: 0 <= i < |s| ==> IsSpace(s[i])
  }

  /** Surrounding white space of any kind and length never changes the comparison key. */
  lemma {:induction false} NormalizeIgnoresPadding(pre: string, s: string, post: string)
    requires AllSpace(pre) && AllSpace(post)
    ensures Normalize(pre + s + post) == Normalize(s)
  {
    var l := Lower(s);
    var p := pre + s + post;
    var lp := Lower(p);
    assert forall i :: 0 <= i < |lp| ==> lp[i] == (pre + l + post)[i] by {
      forall i | 0 <= i < |lp| ensures lp[i] == (pre + l + post)[i] {
        if i < |pre| {
          assert p[i] == pre[i] && IsSpace(pre[i]);
        } else if i < |pre| + |s| {
          assert p[i] == s[i - |pre|];
        } else {
          assert p[i] == post[i - |pre| - |s|] && IsSpace(post[i - |pre| - |s|]);
        }
      }
    }
    assert lp == pre + l + post;
    TrimIgnoresPadding(pre, l, post);
  }

  /** `trim()` of a padded string is `trim()` of the string itself. */
  lemma {:induction false} TrimIgnoresPadding(pre: string, s: string, post: string)
    requires AllSpace(pre) && AllSpace(post)
    ensures Trim(pre + s + post) == Trim(s)
  {
    assert pre + s + post == pre + (s + post);
    TrimStartSkipsSpaces(pre, s + post);
    var a := TrimStart(s);
    if a == "" {
      assert AllSpace(s + post);
      TrimStartAllSpaces(s + post);
    } else {
      TrimStartAppend(s, post);
      TrimEndSkipsSpaces(a, post);
    }
  }

  lemma {:induction false} TrimStartSkipsSpaces(pre: string, s: string)
    requires AllSpace(pre)
    ensures TrimStart(pre + s) == TrimStart(s)
    decreases |pre|
  {
    if |pre| > 0 {
      assert (pre + s)[0] == pre[0] && IsSpace(pre[0]);
      assert (pre + s)[1..] == pre[1..] + s;
      TrimStartSkipsSpaces(pre[1..], s);
    } else {
      assert pre + s == s;
    }
  }

  lemma {:induction false} TrimEndSkipsSpaces(s: string, post: string)
    requires AllSpace(post)
    ensures TrimEnd(s + post) == TrimEnd(s)
    decreases |post|
  {
    if |post| > 0 {
      var q := post[..|post| - 1];
      assert (s + post)[|s + post| - 1] == post[|post| - 1] && IsSpace(post[|post| - 1]);
      assert (s + post)[..|s + post| - 1] == s + q;
      TrimEndSkipsSpaces(s, q);
    } else {
      assert s + post == s;
    }
  }

  lemma {:induction false} TrimStartAllSpaces(s: string)
    requires AllSpace(s)
    ensures TrimStart(s) == ""
  {
    if |s| > 0 {
      TrimStartAllSpaces(s[1..]);
    }
  }

  lemma {:induction false} TrimStartAppend(s: string, t: string)
    requires TrimStart(s) != ""
    ensures TrimStart(s + t) == TrimStart(s) + t
  {
    if IsSpace(s[0]) {
      assert (s + t)[1..] == s[1..] + t;
      TrimStartAppend(s[1..], t);
    }
  }
}

=== FILE: wrappers.dfy ===
/** Option and Result, the two failure-aware wrappers the model uses for
    nullable values and for calls into the hosted store that may fail. */
module Wrappers {

  /** A value that may be absent: the model's reading of `T | null`. */
  datatype Option<+T> = None | Some(value: T)

  /** The outcome of a store call: a value, or the error it was rejected with. */
  datatype Result<+R, +E> = Success(value: R) | Failure(error: E)
}

/** How the application's JavaScript reads nullable columns in a condition. */
module Js {
  import opened Wrappers

  /** A `string | null` is truthy when it is present and not the empty string. */
  predicate Truthy(s: Option<string>)
  {
    s.Some? && s.value != ""
  }

  /** A `boolean | null` is truthy only when it is present and true. */
  predicate IsTrue(b: Option<bool>)
  {
    b == Some(true)
  }

  /** `a || null` on a string: empty strings collapse to null. */
  function OrNull(s: Option<string>): (r: Option<string>)
    ensures r.Some? <==> Truthy(s)
    ensures r.Some? ==> r == s
  {
    if Truthy(s) then s else None
  }
}
